=== FILE: README.md ===
# go-htmltable in Dafny

This project models the table extractor of go-htmltable. The extractor walks
the node tree of a parsed HTML document and collects every `<table>` as rows
of trimmed cell texts, with row and column spans expanded. The repository
holds two versions of it, and the model keeps them in separate modules:

- `parse.go` is the current one. A `Parser` buffers `(value, rowspan,
  colspan)` cells. A `tr` closes the open row and a `table` closes the open
  table. Closing a table rebuilds the grid: column spans are copied, and row
  spans are carried forward through a per-row carryover list.
- `page.go` is the older one. A `Page` keeps the cells of a row as three
  parallel lists. Closing a table scans each row up to `maxCols` columns and
  asks which recorded span rectangle covers each position.

Modules, one per file:

| file | module | what it holds |
|---|---|---|
| `wrappers.dfy` | `Wrappers` | `Option` and `Result`, for Go's `(value, error)` pairs |
| `text.dfy` | `GoText` | `strings.TrimSpace`, ASCII `strings.ToLower`, `strconv.Atoi` with its 64-bit range |
| `html.dfy` | `Html` | the node tree, and the inner-text collector both files share |
| `attributes.dfy` | `Attributes` | `getAttributes` and the `display:\s*none` search |
| `carryover.dfy` | `CarryoverGrid` | the carryover reconstruction of parse.go's `finishTable`, as functions |
| `widths.dfy` | `Widths` | the `maxCols` width of a list of rows |
| `parser.dfy` | `HtmlTable` | the `Parser` class, its walk and the `finishTable` loops |
| `span_grid.dfy` | `SpanGrid` | `cellSpan`, `spans.Value` and the span-grid scan of page.go |
| `page.dfy` | `HtmlPage` | the `Page` class, its walk and its `finishTable` loops |

Each class method is proved against a specification function of the old
state: `Traverse` against `Walk`, `Page.Parse` against `Visit`, and each
`FinishTable` against its `FinishTableSpec`. The lemmas then state what
those functions guarantee.

Behaviour of the code that is easy to miss:

- A carryover flushed before a cell does not advance the column cursor
  (`currentIndex`). A cell carried from column 1 therefore lands after the
  next row's first declared cell, which the source indexes at column 0
  (`CarriedCellsDoNotAdvanceCursor`).
- In parse.go a column span of 0 or less writes no copy (page.go still
  writes such a cell once). A parsed 0 or negative span is kept as it is.
- parse.go does not pad rows to a common width.
- In page.go, `maxCols` counts declared cells, not columns. A table whose
  column spans make it wider than its longest row is cut off at that count
  (`SpanGrid.WideCellIsTruncated`).
- Both walks switch on a node's data whatever the node's kind. A text node
  whose text is `td` is taken for a cell (`HtmlTable.TextNodeAsCell`).
- page.go does not skip hidden cells. Its first `colspan` or `rowspan`
  attribute decides, compared case-sensitively. parse.go lower-cases the key
  and keeps the last value that parses.

## Model

| member | source | states |
|---|---|---|
| GoText.TrimSpaceIsSlice | parse.go:79 | the trimmed text is a slice of the input with only white space around it, and it starts and ends with a non-space character |
| GoText.TrimSpaceUnique | parse.go:79 | any slice with only white space around it and non-space ends is the trimmed text |
| GoText.TrimSpaceIdempotent | parse.go:79 | trimming twice is trimming once |
| GoText.ToLower | parse.go:105 | the lower-cased key has the same length, and each character is lower-cased on its own |
| GoText.AtoiAccepts | parse.go:107-114 | an accepted numeral is an optional sign followed by digits, and its value lies in the 64-bit range |
| GoText.AtoiDecimal | parse.go:107-114 | every 64-bit value written in decimal, with or without a minus sign, reads back as itself, -9223372036854775808 included; 9223372036854775808 without a sign is refused |
| Html.WriteInnerText | parse.go:228-240 | the builder gets the collected text of the subtree appended to what it held; page.go:229-241 is the same collector |
| Html.InnerTextIsSpacedTexts | parse.go:228-240 | the collected text is the text nodes in document order, each trimmed and followed by one blank |
| Html.CellValueJoinsFragments | parse.go:76-79 | with no blank fragment, a cell's value is its trimmed text fragments joined by single blanks |
| Html.JoinTrimmedEnds | parse.go:79 | a join of non-blank fragments is non-empty and has non-space ends |
| Attributes.HasDisplayNoneIff | parse.go:103-119 | the style search succeeds exactly when the value contains `display:`, then `\s` characters, then `none` |
| Attributes.LastSpanIsLastParseable | parse.go:104-115 | a span is absent exactly when no attribute with that lower-cased key parses; otherwise it is the value of the last one that parses |
| Attributes.GetAttributes | parse.go:99-123 | the spans are the last parseable values, 1 when none parses, and the cell is hidden exactly when a `style` attribute matches |
| CarryoverGrid.DrainWritesAll | parse.go:203-213 | the trailing loop writes every leftover carryover's value in order, and re-registers those with rows left |
| CarryoverGrid.FlushTakesPrefix | parse.go:166-184 | the flush takes the longest prefix of the pending carryovers whose index is at most the cursor (the first one left pending is beyond it), writes their values in order, re-registers those with rows left, leaves the rest pending, and does not move the cursor |
| CarryoverGrid.CopiesWrite | parse.go:187-199 | n copies of a cell write its value n times, register one carryover per copy when its row span exceeds 1, and advance the cursor by n |
| CarryoverGrid.PlaceAllIndex | parse.go:163-200 | the cursor advances once per cell copy and never for a flushed carryover |
| CarryoverGrid.PlaceAllValues | parse.go:163-200 | the values written plus those still pending are, as a multiset, the incoming ones plus the expanded cells |
| CarryoverGrid.PlaceAllLive | parse.go:177-197 | every carryover registered for the next row has a row span of at least 1 |
| CarryoverGrid.PlaceAllFresh | parse.go:163-200 | with nothing pending, the cells write exactly their column-span expansion and registrations |
| CarryoverGrid.BuildRowLength | parse.go:158-215 | an output row has one value per incoming carryover plus one per column its cells span |
| CarryoverGrid.BuildRowValues | parse.go:158-215 | an output row holds, as a multiset, the incoming carryovers' values and the expanded cells |
| CarryoverGrid.BuildRowNextLive | parse.go:177-212 | every carryover handed to the next row has at least one row left |
| CarryoverGrid.BuildRowNextCount | parse.go:177-212 | the carryovers handed to the next row are, as a multiset, the incoming ones with rows left (one row less) plus one per copied column of each cell spanning rows; so their number is the sum of the two counts |
| CarryoverGrid.BuildRowWithoutCarry | parse.go:158-215 | a row with no incoming carryovers is its cells' expansion, and registers exactly their carryovers |
| CarryoverGrid.ReconstructRows | parse.go:158-217 | the table has one output row per buffered row, and row i is built from the carryovers that reach it |
| CarryoverGrid.ReconstructRowLength | parse.go:158-217 | output row i has one value per carryover reaching it plus one per column its cells span |
| CarryoverGrid.CarryInLive | parse.go:216 | every carryover list passed between rows holds only entries with rows left |
| CarryoverGrid.ReconstructWithoutRowSpans | parse.go:158-217 | without row spans, every output row is its own cells' column-span expansion |
| CarryoverGrid.ExpandOfSingleColumns | parse.go:187-188 | with every column span 1, the expansion is the cells' values |
| CarryoverGrid.HeaderWithSpans | parse_test.go:34-47 | the two-row header with row spans on "Date" and "Reason" and column spans on "Added" and "Removed" becomes two rows of six columns |
| CarryoverGrid.CarriedCellsDoNotAdvanceCursor | parse.go:166-198 | a carryover registered at column 1 is written after the next row's first declared cell, which the source indexes at column 0, because flushed carryovers do not move the cursor; the row comes out `A, C, B` |
| HtmlTable.Parser.constructor | parse.go:40-42 | a new parser has no tables and nothing buffered |
| HtmlTable.Parser.Parse | parse.go:55-63 | a failed HTML parse returns its error and leaves the parser unchanged; otherwise the tree is walked and the last table closed |
| HtmlTable.Parser.Traverse | parse.go:66-93 | the new state is the specified walk of the node over the old state |
| HtmlTable.Parser.FinishRow | parse.go:126-135 | the new state is the old one with a non-empty open row closed and `maxCols` widened to it |
| HtmlTable.Parser.FinishTable | parse.go:140-224 | the new state is the old one with the row closed, the reconstruction appended if rows were buffered, and the buffers cleared |
| HtmlTable.BuildTableData | parse.go:156-217 | the row loop returns the reconstruction of the buffered rows |
| HtmlTable.BuildRowData | parse.go:158-216 | one pass of the row loop returns the row's values and the carryovers for the next row |
| HtmlTable.PlaceCell | parse.go:163-200 | the body of the cell loop is the flush followed by the cell's copies |
| HtmlTable.New | parse.go:39-48 | a parse error is returned with no tables; otherwise the tables of the document are returned |
| HtmlTable.FinishRowKeepsInvariant | parse.go:126-135 | closing a row keeps `maxCols` the widest closed row and every closed row non-empty |
| HtmlTable.FinishTableKeepsInvariant | parse.go:140-224 | closing a table keeps the parser invariant, and every finished table non-empty |
| HtmlTable.WalkKeepsInvariant | parse.go:66-93 | the parser invariant holds after walking any subtree |
| HtmlTable.WalkExtendsTables | parse.go:66-93 | a walk only appends tables; it never removes or rewrites one |
| HtmlTable.ParseTablesNonEmpty | parse.go:55-63 | every table a document yields has at least one row |
| HtmlTable.FinishRowConservesCells | parse.go:126-135 | closing a row loses no cell, and leaves the open row empty |
| HtmlTable.FinishTableShape | parse.go:140-224 | closing a table empties the buffers; a table is appended exactly when a row was buffered, with one row per buffered row, each as long as its carryovers and spans require |
| HtmlTable.ParseWithoutCells | parse.go:66-93 | a document without cells yields no table, even with `table` and `tr` elements |
| HtmlTable.TextNodeAsCell | parse.go:70-84 | a text node whose text is `td` or `th` is taken for a cell, with that text as its value |
| HtmlTable.TextAndFootnote | parse_test.go:56-73 | a cell with a text and then a footnote in nested elements has the two texts joined by one blank |
| HtmlTable.BlankFragmentDoublesBlank | parse.go:228-240 | a blank text between two words adds an empty fragment and one more blank, so the cell value has the words two blanks apart |
| HtmlTable.HiddenCellSkipped | parse.go:71-75 | a `td` or `th` whose style hides it leaves the parser state unchanged, whatever is under it |
| HtmlTable.CellOfTextCell | parse.go:71-84 | a `td` holding only a non-blank text yields that text with both spans 1 |
| HtmlTable.WalkOneCellTable | parse.go:85-89 | a `table` element first closes the table before it, and its single cell is then left open |
| HtmlTable.TwoTables | parse_test.go:27-31 | two sibling one-cell tables give two tables, in document order |
| SpanGrid.MatchIsInside | page.go:131-145 | a span matches exactly the positions inside its half-open rectangle |
| SpanGrid.Value | page.go:149-157 | the lookup reports a match exactly when some span covers the position, returns the first such span's value, and returns "" otherwise |
| SpanGrid.FirstMatchIsFirst | page.go:149-157 | no value exactly when no span covers the position; otherwise the value of a covering span with no covering span before it |
| SpanGrid.ScanRowShape | page.go:188-212 | a row scan writes no more than `maxCols` values, takes no more declared cells than the row has, only adds spans, and stops short only when every declared cell was taken |
| SpanGrid.ScanRowTakesInOrder | page.go:189-211 | the declared cells are taken left to right, each once, and a covered position takes none |
| SpanGrid.ScanRowRecords | page.go:197-208 | the spans a row records are exactly those of its spanning cells: every recorded span starts at a column `b` the scan wrote and belongs to a declared cell the scan took, that spans more than one row or column and whose value sits at `b`, covering `[b, b+colSpan) x [y, y+rowSpan)` with that value; and every taken cell with a row or column span above 1 has such a span recorded |
| SpanGrid.ScanShape | page.go:184-221 | the finished table has one row per declared row, none wider than `maxCols` |
| SpanGrid.ScanPlainTable | page.go:184-221 | a table whose cells all span one row and one column, scanned at least as wide as its widest row, is returned as declared |
| SpanGrid.WideCellIsTruncated | page.go:188 | in a two-column table whose first cell spans two columns, the first row's second declared cell is cut off |
| HtmlPage.Page.constructor | page.go:39 | a new page has every field at its zero value |
| HtmlPage.Page.Len | page.go:60-62 | the number of tables found |
| HtmlPage.Page.Init | page.go:64-72 | a failed HTML parse returns its error and leaves the page unchanged; otherwise the tree is walked and the last table closed |
| HtmlPage.Page.Parse | page.go:74-94 | the new state is the specified walk of the node over the old state |
| HtmlPage.Page.IntAttrOr | page.go:96-108 | the result is decided by the first attribute with the key |
| HtmlPage.Page.FinishRow | page.go:110-123 | the new state is the old one with a non-empty open row and its span lists closed, and `maxCols` widened to it |
| HtmlPage.Page.FinishTable | page.go:159-226 | the new state is the old one with the row closed, the scan appended if rows were buffered, and the buffers cleared by the deferred reset |
| HtmlPage.ScanTable | page.go:184-221 | the row loop returns the scan of the buffered rows |
| HtmlPage.ScanRowCells | page.go:185-212 | the column loop returns the row's scan and the spans recorded so far |
| HtmlPage.New | page.go:38-41 | a fresh valid page is returned with the parse error, if any, and otherwise holds the tables of the document |
| HtmlPage.IntAttrFirstKey | page.go:96-108 | the default when no attribute has the key; otherwise the first such attribute's value if it parses, the default if not |
| HtmlPage.FinishRowKeepsInvariant | page.go:110-123 | closing a row keeps the three lists in lock step and `maxCols` the widest closed row |
| HtmlPage.FinishTableKeepsInvariant | page.go:159-226 | closing a table keeps the page invariant, and every finished table non-empty |
| HtmlPage.VisitKeepsInvariant | page.go:74-94 | the page invariant holds after visiting any subtree |
| HtmlPage.PageTablesNonEmpty | page.go:64-72 | every table a page yields has at least one row |
| HtmlPage.FinishTableShape | page.go:159-226 | closing a table empties every buffer, `colSpans` and `rowSpans` included; a table is appended exactly when a row was buffered, with one row per buffered row, none wider than the widest |
| HtmlPage.FinishPlainTable | page.go:159-226 | rows, the open one included, whose cells all span one row and one column come back as a table exactly as declared |
| HtmlPage.CellIsAlwaysCollected | page.go:79-85 | a `td` or `th` is collected whatever its attributes, and closes nothing |
| HtmlPage.FirstUnparsableWins | page.go:97-104 | an unparsable first `colspan` gives the default even when a later one parses |

## Left out

- The HTML parser (`html.Parse` and the swappable `htmlParse`) is not part of this model. Its outcome is a parameter: a node tree, or an error string that is returned unchanged.
- `NewFromString` and `NewFromResponse` only wrap `New` around a string reader or an HTTP response body. They are left out with the reader and the network.
- The `context` and the `Logger` calls of page.go are left out, because they only log.
- The `recover` in page.go's `finishTable` is not modelled: under the page invariant the scan never indexes out of range. The `!Aligned` branch of `FinishTableSpec` only keeps the function total; it stands for states the invariant rules out, not for what the source does with them.
- `Table.String` in page.go is left out, because it only formats a row count.
- The commented-out `cellSpan` code at the end of parse.go is left out, because it is dead.
- The `skipRow` branch of page.go's `finishTable` is left out, because `skipRow` is never set.
- Text is modelled as a sequence of characters, not UTF-8 bytes.
- `GoText.ToLower`: lower-cases ASCII letters only, where Go lower-cases all of Unicode. Only the keys `colspan`, `rowspan` and `style` matter after lower-casing, and no non-ASCII character lower-cases in Go to a letter of those keys.
- Go's `int` is unbounded here. The column cursor, `x + colSpan` and `y + rowSpan` can overflow 64 bits in Go only for spans near the 64-bit limit.
- Go's `error` is modelled as its message string.

=== FILE: attributes.dfy ===
/**
 * `getAttributes` of parse.go: the row span, the column span and the
 * `display:none` flag of a cell element.
 */
module Attributes {
  import opened Wrappers
  import opened GoText
  import opened Html

  /** `\s` in Go's regular-expression syntax: `[\t\n\f\r ]`. */
  predicate IsRegexSpace(c: char) {
    c == '\t' || c == '\n' || c == '\U{0C}' || c == '\r' || c == ' '
  }

  predicate AllRegexSpace(s: string) {
    forall k :: 0 <= k < |s| ==> IsRegexSpace(s[k])
  }

  /** `u` begins with `\s*none`. */
  predicate NoneAfterBlanks(u: string) {
    (|u| >= 4 && u[..4] == "none") || (u != [] && IsRegexSpace(u[0]) && NoneAfterBlanks(u[1..]))
  }

  /** The expression `display:\s*none` matches at position `i` of `s`. */
  predicate MatchAt(s: string, i: nat)
    requires i <= |s|
  {
    |s| - i >= 8 && s[i..i + 8] == "display:" && NoneAfterBlanks(s[i + 8..])
  }

  /** The expression matches at some position `i` or later. */
  predicate MatchFrom(s: string, i: nat)
    requires i <= |s|
    decreases |s| - i
  {
    MatchAt(s, i) || (i < |s| && MatchFrom(s, i + 1))
  }

  /** `displayNoneRegexp.Match`: an unanchored, case-sensitive search for `display:\s*none`. */
  predicate HasDisplayNone(s: string) {
    MatchFrom(s, 0)
  }

  /** A match of `display:\s*none` spelled out: the literal, blanks, the literal. */
  ghost predicate DisplayNoneAt(s: string, i: int, j: int) {
    0 <= i && i + 8 <= j && j + 4 <= |s|
    && s[i..i + 8] == "display:" && AllRegexSpace(s[i + 8..j]) && s[j..j + 4] == "none"
  }

  lemma {:induction false} NoneAfterBlanksSound(u: string) returns (j: nat)
    requires NoneAfterBlanks(u)
    ensures j + 4 <= |u| && AllRegexSpace(u[..j]) && u[j..j + 4] == "none"
  {
    if |u| >= 4 && u[..4] == "none" {
      j := 0;
    } else {
      var j' := NoneAfterBlanksSound(u[1..]);
      j := j' + 1;
      assert u[1..][..j'] == u[1..j];
      assert u[1..][j'..j' + 4] == u[j..j + 4];
    }
  }

  lemma {:induction false} NoneAfterBlanksComplete(u: string, j: nat)
    requires j + 4 <= |u| && AllRegexSpace(u[..j]) && u[j..j + 4] == "none"
    ensures NoneAfterBlanks(u)
  {
    if j > 0 {
      assert IsRegexSpace(u[..j][0]);
      assert u[1..][..j - 1] == u[1..j];
      assert u[1..][j - 1..j + 3] == u[j..j + 4];
      NoneAfterBlanksComplete(u[1..], j - 1);
    } else {
      assert u[..4] == u[j..j + 4];
    }
  }

  lemma {:induction false} MatchFromSound(s: string, i: nat) returns (b: int, e: int)
    requires i <= |s| && MatchFrom(s, i)
    ensures i <= b && DisplayNoneAt(s, b, e)
    decreases |s| - i
  {
    if MatchAt(s, i) {
      var j := NoneAfterBlanksSound(s[i + 8..]);
      b, e := i, i + 8 + j;
      assert s[i + 8..][..j] == s[i + 8..e];
      assert s[i + 8..][j..j + 4] == s[e..e + 4];
    } else {
      b, e := MatchFromSound(s, i + 1);
    }
  }

  lemma {:induction false} MatchFromComplete(s: string, i: nat, b: int, e: int)
    requires i <= b && DisplayNoneAt(s, b, e)
    ensures MatchFrom(s, i)
    decreases b - i
  {
    if i == b {
      var u := s[b + 8..];
      assert u[..e - b - 8] == s[b + 8..e];
      assert u[e - b - 8..e - b - 4] == s[e..e + 4];
      NoneAfterBlanksComplete(u, e - b - 8);
    } else {
      MatchFromComplete(s, i + 1, b, e);
    }
  }

  /** The search succeeds exactly when `s` contains `display:`, blanks, then `none`. */
  lemma HasDisplayNoneIff(s: string)
    ensures HasDisplayNone(s) <==> exists b, e :: DisplayNoneAt(s, b, e)
  {
    if HasDisplayNone(s) {
      var b, e := MatchFromSound(s, 0);
    }
    if exists b, e :: DisplayNoneAt(s, b, e) {
      var b, e :| DisplayNoneAt(s, b, e);
      MatchFromComplete(s, 0, b, e);
    }
  }

  /**
   * The value of the last attribute whose lower-cased key is `name` and whose
   * value `Atoi` accepts; `None` when there is no such attribute.
   */
  function LastSpan(attrs: seq<Attribute>, name: string): Option<int> {
    if attrs == [] then None
    else
      var a := attrs[|attrs| - 1];
      if ToLower(a.key) == name && Atoi(a.val).Some? then Atoi(a.val) else LastSpan(attrs[..|attrs| - 1], name)
  }

  /** The span an attribute list declares under `name`, 1 when none parses. */
  function SpanOr(attrs: seq<Attribute>, name: string): int {
    match LastSpan(attrs, name)
    case Some(v) => v
    case None => 1
  }

  predicate Parses(a: Attribute, name: string) {
    ToLower(a.key) == name && Atoi(a.val).Some?
  }

  /** The cell is hidden: some attribute with lower-cased key `style` contains `display:\s*none`. */
  predicate Hidden(attrs: seq<Attribute>) {
    exists k :: 0 <= k < |attrs| && ToLower(attrs[k].key) == "style" && HasDisplayNone(attrs[k].val)
  }

  /**
   * `LastSpan` picks the last parseable occurrence: it is `Some(v)` exactly
   * when attribute `k` parses to `v` and none after `k` parses, and `None`
   * exactly when no occurrence parses.
   */
  lemma {:induction false} LastSpanIsLastParseable(attrs: seq<Attribute>, name: string)
    ensures LastSpan(attrs, name).None? <==> forall k :: 0 <= k < |attrs| ==> !Parses(attrs[k], name)
    ensures LastSpan(attrs, name).Some? ==>
      exists k :: 0 <= k < |attrs| && Parses(attrs[k], name) && Atoi(attrs[k].val) == LastSpan(attrs, name)
               && forall m :: k < m < |attrs| ==> !Parses(attrs[m], name)
  {
    LastSpanNone(attrs, name);
    if LastSpan(attrs, name).Some? {
      var k := LastSpanSome(attrs, name);
    }
  }

  lemma {:induction false} LastSpanNone(attrs: seq<Attribute>, name: string)
    ensures LastSpan(attrs, name).None? <==> forall k :: 0 <= k < |attrs| ==> !Parses(attrs[k], name)
  {
    if attrs != [] {
      var p := attrs[..|attrs| - 1];
      LastSpanNone(p, name);
      assert forall k :: 0 <= k < |p| ==> p[k] == attrs[k];
    }
  }

  lemma {:induction false} LastSpanSome(attrs: seq<Attribute>, name: string) returns (k: nat)
    requires LastSpan(attrs, name).Some?
    ensures k < |attrs| && Parses(attrs[k], name) && Atoi(attrs[k].val) == LastSpan(attrs, name)
    ensures forall m :: k < m < |attrs| ==> !Parses(attrs[m], name)
  {
    var last := |attrs| - 1;
    if Parses(attrs[last], name) {
      k := last;
    } else {
      var p := attrs[..last];
      k := LastSpanSome(p, name);
      assert forall m :: 0 <= m < |p| ==> p[m] == attrs[m];
    }
  }

  /**
   * `getAttributes`: starts from row span 1, column span 1, not hidden, and
   * walks the attributes in order. A span is replaced only when its value
   * parses (a parsed 0 or negative value is kept); a `style` value matching
   * `display:\s*none` sets the flag.
   */
  method GetAttributes(n: Node) returns (rowspan: int, colspan: int, isDisplayNone: bool)
    ensures rowspan == SpanOr(n.attrs, "rowspan")
    ensures colspan == SpanOr(n.attrs, "colspan")
    ensures isDisplayNone == Hidden(n.attrs)
  {
    var attrs := n.attrs;
    colspan := 1;
    rowspan := 1;
    isDisplayNone := false;
    for i := 0 to |attrs|
      invariant colspan == SpanOr(attrs[..i], "colspan")
      invariant rowspan == SpanOr(attrs[..i], "rowspan")
      invariant isDisplayNone == Hidden(attrs[..i])
    {
      var a := attrs[i];
      assert attrs[..i + 1][..i] == attrs[..i] && attrs[..i + 1][i] == a;
      var key := ToLower(a.key);
      if key == "colspan" {
        var val := Atoi(a.val);
        if val.Some? {
          colspan := val.value;
        }
      } else if key == "rowspan" {
        var val := Atoi(a.val);
        if val.Some? {
          rowspan := val.value;
        }
      } else if key == "style" {
        if HasDisplayNone(a.val) {
          isDisplayNone := true;
        }
      }
      assert Hidden(attrs[..i + 1]) <==> Hidden(attrs[..i]) || (key == "style" && HasDisplayNone(a.val));
    }
    assert attrs[..|attrs|] == attrs;
  }
}

=== FILE: carryover.dfy ===
/**
 * The grid reconstructor of parse.go (`finishTable`), as functions: each
 * buffered row of `(Value, RowSpan, ColSpan)` cells becomes a row of
 * strings, column spans are expanded in place and row spans are carried
 * into later rows through a per-row list of carryovers.
 */
module CarryoverGrid {

  /** A `<td>`/`<th>` as buffered by the parser; spans are kept as parsed, 0 and negatives included. */
  datatype Cell = Cell(value: string, rowSpan: int, colSpan: int)

  /** A cell that must reappear in the next row: its value, the column it was registered at, the rows still to cover. */
  datatype Carryover = Carryover(value: string, index: int, rowSpan: int)

  /**
   * One output row under construction: the values written so far, the
   * carryovers from the previous row not yet written, the carryovers
   * registered for the next row, and the column cursor (`currentIndex`).
   */
  datatype RowBuild = RowBuild(data: seq<string>, pending: seq<Carryover>, next: seq<Carryover>, index: int)

  /** The carryover re-registered for the next row once `co` is written: the same value and index, one row less, if rows remain. */
  function Decrement(co: Carryover): seq<Carryover> {
    if co.rowSpan > 1 then [Carryover(co.value, co.index, co.rowSpan - 1)] else []
  }

  function Decremented(cos: seq<Carryover>): seq<Carryover> {
    if cos == [] then [] else Decrement(cos[0]) + Decremented(cos[1..])
  }

  function Values(cos: seq<Carryover>): seq<string> {
    if cos == [] then [] else [cos[0].value] + Values(cos[1..])
  }

  /** Writes carryover `co`: its value is appended and, while rows remain, it is re-registered at the same index. */
  function Emit(b: RowBuild, co: Carryover): RowBuild {
    b.(data := b.data + [co.value], next := b.next + Decrement(co))
  }

  /** The flush before a cell: pops and writes pending carryovers while the first one's index is at most the cursor. */
  function Flush(b: RowBuild): RowBuild
    decreases |b.pending|
  {
    if b.pending != [] && b.pending[0].index <= b.index
    then Flush(Emit(b.(pending := b.pending[1..]), b.pending[0]))
    else b
  }

  /** The number of copies a cell writes: its column span, none when that is not positive. */
  function Width(c: Cell): nat {
    if c.colSpan > 0 then c.colSpan else 0
  }

  /** One copy of a cell: its value, a carryover at the cursor when its row span exceeds 1, the cursor advanced. */
  function CopyOnce(b: RowBuild, c: Cell): RowBuild {
    b.(data := b.data + [c.value],
       next := if c.rowSpan > 1 then b.next + [Carryover(c.value, b.index, c.rowSpan - 1)] else b.next,
       index := b.index + 1)
  }

  function Copies(b: RowBuild, c: Cell, n: nat): RowBuild {
    if n == 0 then b else CopyOnce(Copies(b, c, n - 1), c)
  }

  /** One declared cell: the flush, then `Width(c)` copies. */
  function Place(b: RowBuild, c: Cell): RowBuild {
    Copies(Flush(b), c, Width(c))
  }

  function PlaceAll(b: RowBuild, cells: seq<Cell>): RowBuild
    decreases |cells|
  {
    if cells == [] then b else PlaceAll(Place(b, cells[0]), cells[1..])
  }

  /** The trailing loop: writes the given carryovers in order. */
  function Drain(b: RowBuild, cos: seq<Carryover>): RowBuild
    decreases |cos|
  {
    if cos == [] then b else Drain(Emit(b, cos[0]), cos[1..])
  }

  /** One row of `finishTable`: the cells placed against the incoming carryovers, then the leftovers drained. */
  function BuildRow(carry: seq<Carryover>, row: seq<Cell>): RowBuild {
    var b := PlaceAll(RowBuild([], carry, [], 0), row);
    Drain(b.(pending := []), b.pending)
  }

  /** The rows of the table, each row's carryovers for the next row threaded through. */
  function Reconstruct(rows: seq<seq<Cell>>, carry: seq<Carryover>): seq<seq<string>> {
    if rows == [] then []
    else
      var b := BuildRow(carry, rows[0]);
      [b.data] + Reconstruct(rows[1..], b.next)
  }

  /** The carryovers that reach row `i`. */
  function CarryIn(rows: seq<seq<Cell>>, carry: seq<Carryover>, i: nat): seq<Carryover>
    requires i < |rows|
  {
    if i == 0 then carry else CarryIn(rows[1..], BuildRow(carry, rows[0]).next, i - 1)
  }

  // ---------------------------------------------------------------------
  // Reference definitions the lemmas below compare against

  function Repeat(v: string, n: nat): seq<string> {
    if n == 0 then [] else Repeat(v, n - 1) + [v]
  }

  /** The declared cells with their column spans expanded: `Width(c)` copies of each value. */
  function Expand(cells: seq<Cell>): seq<string> {
    if cells == [] then [] else Repeat(cells[0].value, Width(cells[0])) + Expand(cells[1..])
  }

  /** The number of columns the declared cells write. */
  function TotalWidth(cells: seq<Cell>): nat {
    if cells == [] then 0 else Width(cells[0]) + TotalWidth(cells[1..])
  }

  /** The carryovers one cell registers when its copies start at column `start`: one per copied column. */
  function Registrations(c: Cell, start: int, n: nat): seq<Carryover> {
    if n == 0 then []
    else Registrations(c, start, n - 1) + (if c.rowSpan > 1 then [Carryover(c.value, start + n - 1, c.rowSpan - 1)] else [])
  }

  /** The carryovers the declared cells register, the first copy written at column `start`. */
  function Registered(cells: seq<Cell>, start: int): seq<Carryover> {
    if cells == [] then []
    else Registrations(cells[0], start, Width(cells[0])) + Registered(cells[1..], start + Width(cells[0]))
  }

  /** Every carryover still has at least one row to cover. */
  predicate AllLive(cos: seq<Carryover>) {
    forall k :: 0 <= k < |cos| ==> cos[k].rowSpan >= 1
  }

  // ---------------------------------------------------------------------
  // Lemmas

  lemma {:induction false} ValuesAppend(a: seq<Carryover>, b: seq<Carryover>)
    ensures Values(a + b) == Values(a) + Values(b)
  {
    if a != [] {
      assert (a + b)[1..] == a[1..] + b;
      ValuesAppend(a[1..], b);
    } else {
      assert a + b == b;
    }
  }

  lemma {:induction false} DecrementedAppend(a: seq<Carryover>, b: seq<Carryover>)
    ensures Decremented(a + b) == Decremented(a) + Decremented(b)
  {
    if a != [] {
      assert (a + b)[1..] == a[1..] + b;
      DecrementedAppend(a[1..], b);
      assert Decremented(a + b) == Decrement(a[0]) + Decremented(a[1..] + b);
    } else {
      assert a + b == b;
    }
  }

  /** The trailing loop appends every leftover's value, and re-registers those with rows left, in order. */
  lemma {:induction false} DrainWritesAll(b: RowBuild, cos: seq<Carryover>)
    ensures Drain(b, cos) == b.(data := b.data + Values(cos), next := b.next + Decremented(cos))
    decreases |cos|
  {
    if cos != [] {
      DrainWritesAll(Emit(b, cos[0]), cos[1..]);
    }
  }

  /** Every carryover in `cos` is due at cursor `i`: its index is at most `i`. */
  predicate Due(cos: seq<Carryover>, i: int) {
    forall k :: 0 <= k < |cos| ==> cos[k].index <= i
  }

  /**
   * The flush takes the longest prefix of the pending carryovers that are
   * due at the cursor: it writes their values in order, re-registers those
   * with rows left and leaves the rest pending; the cursor does not move.
   */
  lemma {:induction false} FlushTakesPrefix(b: RowBuild) returns (t: nat)
    ensures t <= |b.pending|
    ensures Due(b.pending[..t], b.index)
    ensures t < |b.pending| ==> b.pending[t].index > b.index
    ensures Flush(b).data == b.data + Values(b.pending[..t])
    ensures Flush(b).pending == b.pending[t..]
    ensures Flush(b).next == b.next + Decremented(b.pending[..t])
    ensures Flush(b).index == b.index
    decreases |b.pending|
  {
    if b.pending != [] && b.pending[0].index <= b.index {
      var co, rest := b.pending[0], b.pending[1..];
      var b' := Emit(b.(pending := rest), co);
      assert Flush(b) == Flush(b');
      var t' := FlushTakesPrefix(b');
      t := t' + 1;
      var taken := b.pending[..t];
      assert Due(taken, b.index) by {
        forall k | 1 <= k < |taken|
          ensures taken[k].index <= b.index
        {
          assert taken[k] == rest[..t'][k - 1];
        }
      }
      assert Values(taken) == [co.value] + Values(rest[..t']) by {
        assert taken[1..] == rest[..t'];
      }
      assert Decremented(taken) == Decrement(co) + Decremented(rest[..t']) by {
        assert taken[1..] == rest[..t'];
      }
      AppendAssoc(b.data, [co.value], Values(rest[..t']));
      AppendAssoc(b.next, Decrement(co), Decremented(rest[..t']));
      assert b.pending[t..] == rest[t'..];
    } else {
      t := 0;
      assert b.pending[..0] == [];
    }
  }

  /** `n` copies of a cell write `n` copies of its value, register its carryovers and advance the cursor by `n`. */
  lemma {:induction false} CopiesWrite(b: RowBuild, c: Cell, n: nat)
    ensures Copies(b, c, n) == RowBuild(b.data + Repeat(c.value, n), b.pending,
                                        b.next + Registrations(c, b.index, n), b.index + n)
  {
    if n > 0 {
      CopiesWrite(b, c, n - 1);
    }
  }

  /** The cursor advances once per cell copy and never for a flushed carryover. */
  lemma {:induction false} PlaceAllIndex(b: RowBuild, cells: seq<Cell>)
    ensures PlaceAll(b, cells).index == b.index + TotalWidth(cells)
    decreases |cells|
  {
    if cells != [] {
      var t := FlushTakesPrefix(b);
      CopiesWrite(Flush(b), cells[0], Width(cells[0]));
      PlaceAllIndex(Place(b, cells[0]), cells[1..]);
    }
  }

  /** Every carryover is either written or still pending, and every cell adds `Width` values. */
  lemma {:induction false} PlaceAllLength(b: RowBuild, cells: seq<Cell>)
    ensures |PlaceAll(b, cells).data| + |PlaceAll(b, cells).pending| == |b.data| + |b.pending| + TotalWidth(cells)
    decreases |cells|
  {
    if cells != [] {
      var c := cells[0];
      var t := FlushTakesPrefix(b);
      CopiesWrite(Flush(b), c, Width(c));
      ValuesLength(b.pending[..t]);
      RepeatLength(c.value, Width(c));
      PlaceAllLength(Place(b, c), cells[1..]);
    }
  }

  lemma AppendAssoc<T>(a: seq<T>, b: seq<T>, c: seq<T>)
    ensures a + b + c == a + (b + c)
  {
  }

  /** Moving the middle part `x` of `a + x + r` next to `y` keeps the multiset of everything. */
  lemma MultisetShift<T>(a: seq<T>, x: seq<T>, r: seq<T>, y: seq<T>)
    ensures multiset(a + x + r) + multiset(y) == multiset(a) + multiset(x + y) + multiset(r)
  {
  }

  /** One cell moves a prefix of the pending values to the row and adds its own copies. */
  lemma PlaceValues(b: RowBuild, c: Cell)
    ensures multiset(Place(b, c).data) + multiset(Values(Place(b, c).pending))
         == multiset(b.data) + multiset(Values(b.pending)) + multiset(Repeat(c.value, Width(c)))
  {
    var t := FlushTakesPrefix(b);
    CopiesWrite(Flush(b), c, Width(c));
    var pre, post := b.pending[..t], b.pending[t..];
    assert b.pending == pre + post;
    ValuesAppend(pre, post);
    var p := Place(b, c);
    assert p.data == b.data + Values(pre) + Repeat(c.value, Width(c));
    assert p.pending == post;
    MultisetShift(b.data, Values(pre), Repeat(c.value, Width(c)), Values(post));
  }

  /** The values written plus those still pending are the incoming ones plus the expanded cells. */
  lemma {:induction false} PlaceAllValues(b: RowBuild, cells: seq<Cell>)
    ensures multiset(PlaceAll(b, cells).data) + multiset(Values(PlaceAll(b, cells).pending))
         == multiset(b.data) + multiset(Values(b.pending)) + multiset(Expand(cells))
    decreases |cells|
  {
    if cells != [] {
      PlaceValues(b, cells[0]);
      PlaceAllValues(Place(b, cells[0]), cells[1..]);
    }
  }

  lemma MultisetRegroup(a: multiset<Carryover>, d: multiset<Carryover>, r: multiset<Carryover>, q: multiset<Carryover>,
                        mid: multiset<Carryover>, last: multiset<Carryover>)
    requires mid == a + d + r && last == mid + q
    ensures last == a + d + (r + q)
  {
  }

  lemma RegisteredCons(cells: seq<Cell>, start: int, after: int)
    requires cells != [] && after == start + Width(cells[0])
    ensures Registered(cells, start) == Registrations(cells[0], start, Width(cells[0])) + Registered(cells[1..], after)
    ensures multiset(Registered(cells, start))
         == multiset(Registrations(cells[0], start, Width(cells[0]))) + multiset(Registered(cells[1..], after))
  {
    var first, rest := Registrations(cells[0], start, Width(cells[0])), Registered(cells[1..], after);
    assert Registered(cells, start) == first + rest;
  }

  /** One cell's part of the accounting below. */
  lemma PlaceNext(b: RowBuild, c: Cell)
    ensures Place(b, c).index == b.index + Width(c)
    ensures multiset(Place(b, c).next) + multiset(Decremented(Place(b, c).pending))
         == multiset(b.next) + multiset(Decremented(b.pending)) + multiset(Registrations(c, b.index, Width(c)))
  {
    var t := FlushTakesPrefix(b);
    CopiesWrite(Flush(b), c, Width(c));
    var pre, post := b.pending[..t], b.pending[t..];
    assert b.pending == pre + post;
    DecrementedAppend(pre, post);
    var p := Place(b, c);
    assert p.next == b.next + Decremented(pre) + Registrations(c, b.index, Width(c));
    assert p.pending == post;
    MultisetShift(b.next, Decremented(pre), Registrations(c, b.index, Width(c)), Decremented(post));
  }

  /**
   * Accounting for the obligations toward the next row: placing cells
   * moves the flushed carryovers, decremented, from `pending` to `next`,
   * and adds one registration per copy of each cell whose row span exceeds 1.
   */
  lemma {:induction false} PlaceAllNext(b: RowBuild, cells: seq<Cell>)
    ensures multiset(PlaceAll(b, cells).next) + multiset(Decremented(PlaceAll(b, cells).pending))
         == multiset(b.next) + multiset(Decremented(b.pending)) + multiset(Registered(cells, b.index))
    decreases |cells|
  {
    if cells != [] {
      var c := cells[0];
      var p := Place(b, c);
      var q := PlaceAll(p, cells[1..]);
      PlaceNext(b, c);
      PlaceAllNext(p, cells[1..]);
      var regs, rest := Registrations(c, b.index, Width(c)), Registered(cells[1..], p.index);
      RegisteredCons(cells, b.index, p.index);
      assert PlaceAll(b, cells) == q;
      MultisetRegroup(multiset(b.next), multiset(Decremented(b.pending)), multiset(regs), multiset(rest),
                      multiset(p.next) + multiset(Decremented(p.pending)),
                      multiset(q.next) + multiset(Decremented(q.pending)));
    }
  }

  /** Every carryover re-registered or newly registered still has a row to cover. */
  lemma {:induction false} DecrementedLive(cos: seq<Carryover>)
    ensures AllLive(Decremented(cos))
  {
    if cos != [] {
      DecrementedLive(cos[1..]);
    }
  }

  lemma {:induction false} RegistrationsLive(c: Cell, start: int, n: nat)
    ensures AllLive(Registrations(c, start, n))
  {
    if n > 0 {
      RegistrationsLive(c, start, n - 1);
    }
  }

  lemma {:induction false} PlaceAllLive(b: RowBuild, cells: seq<Cell>)
    requires AllLive(b.next)
    ensures AllLive(PlaceAll(b, cells).next)
    decreases |cells|
  {
    if cells != [] {
      var c := cells[0];
      var t := FlushTakesPrefix(b);
      CopiesWrite(Flush(b), c, Width(c));
      DecrementedLive(b.pending[..t]);
      RegistrationsLive(c, b.index, Width(c));
      PlaceAllLive(Place(b, c), cells[1..]);
    }
  }

  /** With nothing pending, one cell writes its copies and registrations and advances the cursor by its width. */
  lemma PlaceFresh(b: RowBuild, c: Cell)
    requires b.pending == []
    ensures Place(b, c).data == b.data + Repeat(c.value, Width(c))
    ensures Place(b, c).pending == []
    ensures Place(b, c).next == b.next + Registrations(c, b.index, Width(c))
    ensures Place(b, c).index == b.index + Width(c)
  {
    assert Flush(b) == b;
    CopiesWrite(b, c, Width(c));
  }

  /** With nothing pending, placing cells writes exactly their expansion and registrations. */
  lemma PlaceAllFresh(b: RowBuild, cells: seq<Cell>)
    requires b.pending == []
    ensures PlaceAll(b, cells).data == b.data + Expand(cells)
    ensures PlaceAll(b, cells).pending == []
    ensures PlaceAll(b, cells).next == b.next + Registered(cells, b.index)
  {
    PlaceAllFreshData(b, cells);
    PlaceAllFreshNext(b, cells);
  }

  lemma {:induction false} PlaceAllFreshData(b: RowBuild, cells: seq<Cell>)
    requires b.pending == []
    ensures PlaceAll(b, cells).data == b.data + Expand(cells)
    ensures PlaceAll(b, cells).pending == []
    decreases |cells|
  {
    if cells != [] {
      var c, w := cells[0], Width(cells[0]);
      PlaceFresh(b, c);
      PlaceAllFreshData(Place(b, c), cells[1..]);
      var r, e := Repeat(c.value, w), Expand(cells[1..]);
      assert Expand(cells) == r + e;
      AppendAssoc(b.data, r, e);
    }
  }

  lemma {:induction false} PlaceAllFreshNext(b: RowBuild, cells: seq<Cell>)
    requires b.pending == []
    ensures PlaceAll(b, cells).next == b.next + Registered(cells, b.index)
    decreases |cells|
  {
    if cells != [] {
      var c, w := cells[0], Width(cells[0]);
      var p := Place(b, c);
      PlaceFresh(b, c);
      PlaceAllFreshNext(p, cells[1..]);
      var g, h := Registrations(c, b.index, w), Registered(cells[1..], p.index);
      RegisteredCons(cells, b.index, p.index);
      AppendAssoc(b.next, g, h);
    }
  }

  lemma {:induction false} ValuesLength(cos: seq<Carryover>)
    ensures |Values(cos)| == |cos|
  {
    if cos != [] {
      ValuesLength(cos[1..]);
    }
  }

  lemma {:induction false} RepeatLength(v: string, n: nat)
    ensures |Repeat(v, n)| == n
  {
    if n > 0 {
      RepeatLength(v, n - 1);
    }
  }

  // ---------------------------------------------------------------------
  // One output row

  /**
   * Every incoming carryover is written exactly once, in the flush before a
   * cell or in the trailing loop, and every cell writes `Width` copies: the
   * row has `|carry| + TotalWidth(row)` values.
   */
  lemma BuildRowLength(carry: seq<Carryover>, row: seq<Cell>)
    ensures |BuildRow(carry, row).data| == |carry| + TotalWidth(row)
  {
    var b := PlaceAll(RowBuild([], carry, [], 0), row);
    PlaceAllLength(RowBuild([], carry, [], 0), row);
    DrainWritesAll(b.(pending := []), b.pending);
    ValuesLength(b.pending);
  }

  /** The row holds exactly the incoming carryovers' values and the cells' expanded copies, as a multiset. */
  lemma BuildRowValues(carry: seq<Carryover>, row: seq<Cell>)
    ensures multiset(BuildRow(carry, row).data) == multiset(Values(carry)) + multiset(Expand(row))
  {
    var b := PlaceAll(RowBuild([], carry, [], 0), row);
    PlaceAllValues(RowBuild([], carry, [], 0), row);
    DrainWritesAll(b.(pending := []), b.pending);
  }

  /** Every carryover handed to the next row has a row span of at least 1. */
  lemma BuildRowNextLive(carry: seq<Carryover>, row: seq<Cell>)
    ensures AllLive(BuildRow(carry, row).next)
  {
    var b := PlaceAll(RowBuild([], carry, [], 0), row);
    PlaceAllLive(RowBuild([], carry, [], 0), row);
    DrainWritesAll(b.(pending := []), b.pending);
    DecrementedLive(b.pending);
  }

  /**
   * The next row receives one carryover per incoming carryover with more
   * than one row left, and one per copied column of each cell whose row
   * span exceeds 1.
   */
  lemma BuildRowNextCount(carry: seq<Carryover>, row: seq<Cell>)
    ensures multiset(BuildRow(carry, row).next) == multiset(Decremented(carry)) + multiset(Registered(row, 0))
    ensures |BuildRow(carry, row).next| == |Decremented(carry)| + |Registered(row, 0)|
  {
    var b := PlaceAll(RowBuild([], carry, [], 0), row);
    PlaceAllNext(RowBuild([], carry, [], 0), row);
    DrainWritesAll(b.(pending := []), b.pending);
    var next := BuildRow(carry, row).next;
    assert |multiset(next)| == |multiset(Decremented(carry))| + |multiset(Registered(row, 0))|;
  }

  /** A row with no incoming carryovers is its cells' column-span expansion, and registers exactly their carryovers. */
  lemma BuildRowWithoutCarry(row: seq<Cell>)
    ensures BuildRow([], row).data == Expand(row)
    ensures BuildRow([], row).next == Registered(row, 0)
  {
    PlaceAllFresh(RowBuild([], [], [], 0), row);
  }

  // ---------------------------------------------------------------------
  // The table

  /** The table has one output row per buffered row, and row `i` is built from the carryovers that reach it. */
  lemma {:induction false} ReconstructRows(rows: seq<seq<Cell>>, carry: seq<Carryover>)
    ensures |Reconstruct(rows, carry)| == |rows|
    ensures forall i :: 0 <= i < |rows| ==> Reconstruct(rows, carry)[i] == BuildRow(CarryIn(rows, carry, i), rows[i]).data
    decreases |rows|
  {
    if rows != [] {
      var next := BuildRow(carry, rows[0]).next;
      ReconstructRows(rows[1..], next);
      forall i | 0 < i < |rows|
        ensures Reconstruct(rows, carry)[i] == BuildRow(CarryIn(rows, carry, i), rows[i]).data
      {
        assert rows[1..][i - 1] == rows[i];
      }
    }
  }

  /** Output row `i` has one value per carryover reaching it plus one per column its cells span. */
  lemma ReconstructRowLength(rows: seq<seq<Cell>>, carry: seq<Carryover>, i: nat)
    requires i < |rows|
    ensures i < |Reconstruct(rows, carry)|
      && |Reconstruct(rows, carry)[i]| == |CarryIn(rows, carry, i)| + TotalWidth(rows[i])
  {
    ReconstructRows(rows, carry);
    BuildRowLength(CarryIn(rows, carry, i), rows[i]);
  }

  /** Every carryover list threaded between rows has only entries with a row span of at least 1. */
  lemma {:induction false} CarryInLive(rows: seq<seq<Cell>>, carry: seq<Carryover>, i: nat)
    requires i < |rows| && AllLive(carry)
    ensures AllLive(CarryIn(rows, carry, i))
  {
    if i > 0 {
      BuildRowNextLive(carry, rows[0]);
      CarryInLive(rows[1..], BuildRow(carry, rows[0]).next, i - 1);
    }
  }

  predicate NoRowSpans(rows: seq<seq<Cell>>) {
    forall i, k :: 0 <= i < |rows| && 0 <= k < |rows[i]| ==> rows[i][k].rowSpan <= 1
  }

  lemma {:induction false} RegisteredNone(cells: seq<Cell>, start: int)
    requires forall k :: 0 <= k < |cells| ==> cells[k].rowSpan <= 1
    ensures Registered(cells, start) == []
    decreases |cells|
  {
    if cells != [] {
      RegistrationsNone(cells[0], start, Width(cells[0]));
      RegisteredNone(cells[1..], start + Width(cells[0]));
    }
  }

  lemma {:induction false} RegistrationsNone(c: Cell, start: int, n: nat)
    requires c.rowSpan <= 1
    ensures Registrations(c, start, n) == []
  {
    if n > 0 {
      RegistrationsNone(c, start, n - 1);
    }
  }

  /** Without row spans nothing is carried: every output row is its own cells' column-span expansion. */
  lemma {:induction false} ReconstructWithoutRowSpans(rows: seq<seq<Cell>>)
    requires NoRowSpans(rows)
    ensures |Reconstruct(rows, [])| == |rows|
    ensures forall i :: 0 <= i < |rows| ==> Reconstruct(rows, [])[i] == Expand(rows[i])
    decreases |rows|
  {
    if rows != [] {
      BuildRowWithoutCarry(rows[0]);
      RegisteredNone(rows[0], 0);
      assert NoRowSpans(rows[1..]) by {
        forall i, k | 0 <= i < |rows[1..]| && 0 <= k < |rows[1..][i]| ensures rows[1..][i][k].rowSpan <= 1 {
          assert rows[1..][i] == rows[i + 1];
        }
      }
      ReconstructWithoutRowSpans(rows[1..]);
      forall i | 0 < i < |rows| ensures Reconstruct(rows, [])[i] == Expand(rows[i]) {
        assert rows[1..][i - 1] == rows[i];
      }
    }
  }

  /** With every column span 1, the expansion is the cells' values. */
  lemma {:induction false} ExpandOfSingleColumns(cells: seq<Cell>)
    requires forall k :: 0 <= k < |cells| ==> cells[k].colSpan == 1
    ensures |Expand(cells)| == |cells|
    ensures forall k :: 0 <= k < |cells| ==> Expand(cells)[k] == cells[k].value
  {
    if cells != [] {
      ExpandOfSingleColumns(cells[1..]);
      assert Repeat(cells[0].value, 1) == [cells[0].value];
      forall k | 0 < k < |cells| ensures Expand(cells)[k] == cells[k].value {
        assert cells[1..][k - 1] == cells[k];
      }
    }
  }

  // ---------------------------------------------------------------------
  // Worked examples

  /**
   * A two-row header: "Date" and "Reason" span two rows, "Added" and
   * "Removed" two columns each; the second row's four cells fall between
   * the carried "Date" and "Reason".
   */
  lemma HeaderWithSpans()
    ensures Reconstruct([[Cell("Date", 2, 1), Cell("Added", 1, 2), Cell("Removed", 1, 2), Cell("Reason", 2, 1)],
                         [Cell("Ticker", 1, 1), Cell("Security", 1, 1), Cell("Ticker", 1, 1), Cell("Security", 1, 1)]], [])
         == [["Date", "Added", "Added", "Removed", "Removed", "Reason"],
             ["Date", "Ticker", "Security", "Ticker", "Security", "Reason"]]
  {
    HeaderFirstRow();
    HeaderSecondRow();
  }

  /** The first header row: the column spans doubled, "Date" and "Reason" registered at columns 0 and 5. */
  lemma HeaderFirstRow()
    ensures BuildRow([], [Cell("Date", 2, 1), Cell("Added", 1, 2), Cell("Removed", 1, 2), Cell("Reason", 2, 1)])
         == RowBuild(["Date", "Added", "Added", "Removed", "Removed", "Reason"], [], [Carryover("Date", 0, 1), Carryover("Reason", 5, 1)], 6)
  {
    var date, added, removed, reason := Cell("Date", 2, 1), Cell("Added", 1, 2), Cell("Removed", 1, 2), Cell("Reason", 2, 1);
    var coDate, coReason := Carryover("Date", 0, 1), Carryover("Reason", 5, 1);
    var b1 := RowBuild(["Date"], [], [coDate], 1);
    var b2 := RowBuild(["Date", "Added", "Added"], [], [coDate], 3);
    var b3 := RowBuild(["Date", "Added", "Added", "Removed", "Removed"], [], [coDate], 5);
    var b4 := RowBuild(["Date", "Added", "Added", "Removed", "Removed", "Reason"], [], [coDate, coReason], 6);
    HeaderFirstRowCells();
    assert PlaceAll(b3, [reason]) == b4 by { assert [reason][1..] == []; }
    assert PlaceAll(b2, [removed, reason]) == b4 by { assert [removed, reason][1..] == [reason]; }
    assert PlaceAll(b1, [added, removed, reason]) == b4 by { assert [added, removed, reason][1..] == [removed, reason]; }
    assert PlaceAll(RowBuild([], [], [], 0), [date, added, removed, reason]) == b4 by {
      assert [date, added, removed, reason][1..] == [added, removed, reason];
    }
  }

  /** The four cells of the first header row, one at a time. */
  lemma HeaderFirstRowCells()
    ensures Place(RowBuild([], [], [], 0), Cell("Date", 2, 1)) == RowBuild(["Date"], [], [Carryover("Date", 0, 1)], 1)
    ensures Place(RowBuild(["Date"], [], [Carryover("Date", 0, 1)], 1), Cell("Added", 1, 2))
         == RowBuild(["Date", "Added", "Added"], [], [Carryover("Date", 0, 1)], 3)
    ensures Place(RowBuild(["Date", "Added", "Added"], [], [Carryover("Date", 0, 1)], 3), Cell("Removed", 1, 2))
         == RowBuild(["Date", "Added", "Added", "Removed", "Removed"], [], [Carryover("Date", 0, 1)], 5)
    ensures Place(RowBuild(["Date", "Added", "Added", "Removed", "Removed"], [], [Carryover("Date", 0, 1)], 5), Cell("Reason", 2, 1))
         == RowBuild(["Date", "Added", "Added", "Removed", "Removed", "Reason"], [], [Carryover("Date", 0, 1), Carryover("Reason", 5, 1)], 6)
  {
  }

  /** The second header row: "Date" is flushed before the first cell, "Reason" drained after the last. */
  lemma HeaderSecondRow()
    ensures BuildRow([Carryover("Date", 0, 1), Carryover("Reason", 5, 1)],
                     [Cell("Ticker", 1, 1), Cell("Security", 1, 1), Cell("Ticker", 1, 1), Cell("Security", 1, 1)]).data
         == ["Date", "Ticker", "Security", "Ticker", "Security", "Reason"]
  {
    var ticker, security := Cell("Ticker", 1, 1), Cell("Security", 1, 1);
    var coDate, coReason := Carryover("Date", 0, 1), Carryover("Reason", 5, 1);
    var c0 := RowBuild([], [coDate, coReason], [], 0);
    var c1 := RowBuild(["Date", "Ticker"], [coReason], [], 1);
    var c2 := RowBuild(["Date", "Ticker", "Security"], [coReason], [], 2);
    var c3 := RowBuild(["Date", "Ticker", "Security", "Ticker"], [coReason], [], 3);
    var c4 := RowBuild(["Date", "Ticker", "Security", "Ticker", "Security"], [coReason], [], 4);
    assert Flush(c0) == RowBuild(["Date"], [coReason], [], 0);
    assert Copies(RowBuild(["Date"], [coReason], [], 0), ticker, 1) == c1;
    assert Place(c0, ticker) == c1;
    assert Copies(c1, security, 1) == c2;
    assert Place(c1, security) == c2;
    assert Copies(c2, ticker, 1) == c3;
    assert Place(c2, ticker) == c3;
    assert Copies(c3, security, 1) == c4;
    assert Place(c3, security) == c4;
    assert PlaceAll(c3, [security]) == c4 by { assert [security][1..] == []; }
    assert PlaceAll(c2, [ticker, security]) == c4 by { assert [ticker, security][1..] == [security]; }
    assert PlaceAll(c1, [security, ticker, security]) == c4 by { assert [security, ticker, security][1..] == [ticker, security]; }
    assert PlaceAll(c0, [ticker, security, ticker, security]) == c4 by {
      assert [ticker, security, ticker, security][1..] == [security, ticker, security];
    }
    assert Drain(c4.(pending := []), [coReason]).data == ["Date", "Ticker", "Security", "Ticker", "Security", "Reason"];
  }

  /**
   * Carried values are written without advancing the cursor, so a carryover
   * registered at column 1 is still ahead of the cursor after one declared
   * cell and is written after it.
   */
  lemma CarriedCellsDoNotAdvanceCursor()
    ensures Reconstruct([[Cell("A", 2, 1), Cell("B", 2, 1)], [Cell("C", 1, 1)]], [])
         == [["A", "B"], ["A", "C", "B"]]
  {
    CursorFirstRow();
    CursorSecondRow();
    assert Reconstruct([[Cell("C", 1, 1)]], [Carryover("A", 0, 1), Carryover("B", 1, 1)]) == [["A", "C", "B"]];
  }

  /** Both cells of the first row register a carryover at their own column. */
  lemma CursorFirstRow()
    ensures BuildRow([], [Cell("A", 2, 1), Cell("B", 2, 1)]) == RowBuild(["A", "B"], [], [Carryover("A", 0, 1), Carryover("B", 1, 1)], 2)
  {
    var a, b := Cell("A", 2, 1), Cell("B", 2, 1);
    var coA, coB := Carryover("A", 0, 1), Carryover("B", 1, 1);
    var r0 := RowBuild([], [], [], 0);
    assert Place(r0, a) == RowBuild(["A"], [], [coA], 1);
    assert Place(RowBuild(["A"], [], [coA], 1), b) == RowBuild(["A", "B"], [], [coA, coB], 2);
    assert [a, b][1..] == [b] && [b][1..] == [];
    assert PlaceAll(RowBuild(["A"], [], [coA], 1), [b]) == RowBuild(["A", "B"], [], [coA, coB], 2);
    assert PlaceAll(r0, [a, b]) == RowBuild(["A", "B"], [], [coA, coB], 2);
  }

  /** In the second row "A" is due at column 0, while "B" at column 1 is still ahead of the cursor after "C". */
  lemma CursorSecondRow()
    ensures BuildRow([Carryover("A", 0, 1), Carryover("B", 1, 1)], [Cell("C", 1, 1)]) == RowBuild(["A", "C", "B"], [], [], 1)
  {
    var c := Cell("C", 1, 1);
    var coA, coB := Carryover("A", 0, 1), Carryover("B", 1, 1);
    var r1 := RowBuild([], [coA, coB], [], 0);
    assert Flush(r1) == RowBuild(["A"], [coB], [], 0);
    assert Copies(RowBuild(["A"], [coB], [], 0), c, 1) == RowBuild(["A", "C"], [coB], [], 1);
    assert Place(r1, c) == RowBuild(["A", "C"], [coB], [], 1);
    assert PlaceAll(r1, [c]) == RowBuild(["A", "C"], [coB], [], 1);
    assert Drain(RowBuild(["A", "C"], [], [], 1), [coB]) == RowBuild(["A", "C", "B"], [], [], 1);
  }
}

=== FILE: html.dfy ===
/**
 * The document tree handed over by the HTML parser, and the text collector
 * that flattens the text under a cell (`getInnerText` in parse.go, the
 * identical `Page.innerText` in page.go).
 */
module Html {
  import opened GoText

  /** `html.NodeType`, reduced to the distinction the extractor makes. */
  datatype NodeType =
    | TextNode
    | ElementNode
    | OtherNode  // document, comment, doctype

  datatype Attribute = Attribute(key: string, val: string)

  /**
   * `html.Node`: `data` is the tag name of an element and the payload of a
   * text or comment node; the children are in document order.
   */
  datatype Node = Node(kind: NodeType, data: string, attrs: seq<Attribute>, children: seq<Node>)

  function Element(tag: string, attrs: seq<Attribute>, children: seq<Node>): Node {
    Node(ElementNode, tag, attrs, children)
  }

  function Text(data: string): Node {
    Node(TextNode, data, [], [])
  }

  /** The node data both extractors treat as a table cell, whatever the node's kind. */
  predicate IsCellTag(data: string) {
    data == "td" || data == "th"
  }

  /**
   * What the collector appends for `n`: every text node contributes its
   * trimmed payload and one blank; other nodes contribute their children's
   * text in order.
   */
  function InnerText(n: Node): string
    decreases n, 1
  {
    if n.kind == TextNode then TrimSpace(n.data) + " " else ChildrenText(n.children)
  }

  function ChildrenText(cs: seq<Node>): string
    decreases cs, 0
  {
    if cs == [] then "" else ChildrenText(cs[..|cs| - 1]) + InnerText(cs[|cs| - 1])
  }

  /** The payloads of the text nodes under `n`, in document order. */
  function Texts(n: Node): seq<string>
    decreases n, 1
  {
    if n.kind == TextNode then [n.data] else ChildrenTexts(n.children)
  }

  function ChildrenTexts(cs: seq<Node>): seq<string>
    decreases cs, 0
  {
    if cs == [] then [] else ChildrenTexts(cs[..|cs| - 1]) + Texts(cs[|cs| - 1])
  }

  /** Each fragment trimmed and followed by one blank. */
  function Spaced(ts: seq<string>): string {
    if ts == [] then "" else Spaced(ts[..|ts| - 1]) + TrimSpace(ts[|ts| - 1]) + " "
  }

  /** The trimmed fragments joined by single blanks. */
  function JoinTrimmed(ts: seq<string>): string {
    if ts == [] then ""
    else if |ts| == 1 then TrimSpace(ts[0])
    else JoinTrimmed(ts[..|ts| - 1]) + " " + TrimSpace(ts[|ts| - 1])
  }

  /**
   * `getInnerText(n, sb)`: appends the text under `n` to the builder `sb`,
   * walking the children left to right.
   */
  method WriteInnerText(n: Node, sb: string) returns (out: string)
    ensures out == sb + InnerText(n)
    decreases n
  {
    if n.kind == TextNode {
      out := sb + TrimSpace(n.data) + " ";
      return;
    }
    out := sb;
    var i := 0;
    while i < |n.children|
      invariant i <= |n.children|
      invariant out == sb + ChildrenText(n.children[..i])
    {
      assert n.children[i] in n.children;
      out := WriteInnerText(n.children[i], out);
      assert n.children[..i + 1][..i] == n.children[..i];
      i := i + 1;
    }
    assert n.children[..i] == n.children;
  }

  lemma {:induction false} SpacedAppend(a: seq<string>, b: seq<string>)
    ensures Spaced(a + b) == Spaced(a) + Spaced(b)
    decreases |b|
  {
    if b != [] {
      var b' := b[..|b| - 1];
      assert (a + b)[..|a + b| - 1] == a + b';
      SpacedAppend(a, b');
    } else {
      assert a + b == a;
    }
  }

  /** The collector's output is the document-order text payloads, each trimmed and followed by a blank. */
  lemma {:induction false} InnerTextIsSpacedTexts(n: Node)
    ensures InnerText(n) == Spaced(Texts(n))
    decreases n, 1
  {
    if n.kind == TextNode {
      assert [n.data][..0] == [];
    } else {
      ChildrenTextIsSpacedTexts(n.children);
    }
  }

  lemma {:induction false} ChildrenTextIsSpacedTexts(cs: seq<Node>)
    ensures ChildrenText(cs) == Spaced(ChildrenTexts(cs))
    decreases cs, 0
  {
    if cs != [] {
      var last := cs[|cs| - 1];
      ChildrenTextIsSpacedTexts(cs[..|cs| - 1]);
      InnerTextIsSpacedTexts(last);
      SpacedAppend(ChildrenTexts(cs[..|cs| - 1]), Texts(last));
    }
  }

  /** With no empty fragment, the blanks added by `Spaced` are exactly one separator each and one at the end. */
  lemma {:induction false} SpacedIsJoinPlusBlank(ts: seq<string>)
    requires ts != []
    ensures Spaced(ts) == JoinTrimmed(ts) + " "
  {
    if |ts| == 1 {
      assert ts[..0] == [];
    } else {
      SpacedIsJoinPlusBlank(ts[..|ts| - 1]);
    }
  }

  /** A join of non-blank fragments starts and ends with a non-space character. */
  lemma {:induction false} JoinTrimmedEnds(ts: seq<string>)
    requires ts != []
    requires forall k :: 0 <= k < |ts| ==> TrimSpace(ts[k]) != []
    ensures JoinTrimmed(ts) != []
    ensures !IsSpace(JoinTrimmed(ts)[0]) && !IsSpace(JoinTrimmed(ts)[|JoinTrimmed(ts)| - 1])
  {
    TrimSpaceEnds(ts[|ts| - 1]);
    if |ts| > 1 {
      var p := ts[..|ts| - 1];
      assert forall k :: 0 <= k < |p| ==> p[k] == ts[k];
      JoinTrimmedEnds(p);
      var j := JoinTrimmed(p);
      var t := TrimSpace(ts[|ts| - 1]);
      assert TrimSpace(ts[|ts| - 1]) != [];
      assert JoinTrimmed(ts) == j + " " + t;
      assert JoinTrimmed(ts)[0] == j[0];
    }
  }

  /**
   * The value of a cell (the trimmed collector output) is the trimmed text
   * fragments under it, in document order, joined by single blanks,
   * provided no fragment is blank.
   */
  lemma CellValueJoinsFragments(n: Node)
    requires forall k :: 0 <= k < |Texts(n)| ==> TrimSpace(Texts(n)[k]) != []
    ensures TrimSpace(InnerText(n)) == JoinTrimmed(Texts(n))
  {
    InnerTextIsSpacedTexts(n);
    var ts := Texts(n);
    if ts == [] {
      assert InnerText(n) == "";
      TrimSpaceOfBlank("");
    } else {
      SpacedIsJoinPlusBlank(ts);
      JoinTrimmedEnds(ts);
      TrimSpaceDropsTrailingBlank(JoinTrimmed(ts));
    }
  }
}

=== FILE: page.dfy ===
/**
 * The page extractor of page.go: the same depth-first walk as parse.go,
 * but cells are kept as three parallel lists (values, column spans, row
 * spans), hidden cells are not skipped, the first attribute with the
 * span's name decides, and each table is rebuilt by the span-grid scan.
 */
module HtmlPage {
  import opened Wrappers
  import opened GoText
  import opened Html
  import opened Widths
  import opened SpanGrid

  /** `Table`: rows of trimmed cell texts. */
  datatype Table = Table(rows: seq<seq<string>>)

  /**
   * The page's fields as one value (the context is left out): the finished
   * tables; `rowSpans` and `colSpans`, which are only ever cleared; the open
   * row's values, column spans and row spans; the closed rows of the open
   * table with their column and row spans; and the widest closed row.
   */
  datatype PageState = PageState(
    tables: seq<Table>,
    rowSpans: seq<int>, colSpans: seq<int>,
    row: seq<string>, colSpan: seq<int>, rowSpan: seq<int>,
    rows: seq<seq<string>>, cSpans: seq<seq<int>>, rSpans: seq<seq<int>>,
    maxCols: int)

  /** A page as `New` creates it: every field at its zero value. */
  const Empty := PageState([], [], [], [], [], [], [], [], [], 0)

  /** The closed rows as the scan sees them, `maxCols` wide. */
  function GridOf(s: PageState): Grid {
    Grid(s.rows, s.rSpans, s.cSpans, s.maxCols)
  }

  /**
   * What the page keeps true between calls: the open row's three lists
   * have one entry per cell, so have the closed rows', `maxCols` is the
   * widest closed row, no closed row is empty and no finished table is
   * empty.
   */
  predicate Invariant(s: PageState) {
    && |s.colSpan| == |s.row| && |s.rowSpan| == |s.row|
    && Aligned(GridOf(s))
    && s.maxCols == MaxLen(s.rows)
    && (forall i :: 0 <= i < |s.rows| ==> s.rows[i] != [])
    && (forall t :: 0 <= t < |s.tables| ==> s.tables[t].rows != [])
  }

  // ---------------------------------------------------------------------
  // Specification of the walk

  /** `intAttrOr`: the first attribute whose key is `name` decides; its value if it parses, the default if not; the default when there is none. */
  function IntAttr(attrs: seq<Attribute>, name: string, default: int): int {
    if attrs == [] then default
    else if attrs[0].key != name then IntAttr(attrs[1..], name, default)
    else match Atoi(attrs[0].val)
      case Some(v) => v
      case None => default
  }

  /** `finishRow`: a non-empty open row is closed with its spans and `maxCols` widened to it; an empty one is ignored. */
  function FinishRowSpec(s: PageState): PageState {
    if |s.row| == 0 then s
    else
      s.(maxCols := if |s.row| > s.maxCols then |s.row| else s.maxCols,
         rows := s.rows + [s.row], cSpans := s.cSpans + [s.colSpan], rSpans := s.rSpans + [s.rowSpan],
         row := [], colSpan := [], rowSpan := [])
  }

  /** The deferred reset of `finishTable`, which runs on every exit. */
  function Cleared(s: PageState): PageState {
    s.(rows := [], colSpans := [], rowSpans := [], cSpans := [], rSpans := [], maxCols := 0)
  }

  /**
   * `finishTable`: closes the open row; if any row is buffered its scan is
   * appended as a table; the row buffers are cleared either way. The
   * `!Aligned` branch only keeps the function total: it stands for states
   * that `Invariant` rules out, not for anything the source does.
   */
  function FinishTableSpec(s: PageState): PageState {
    var f := FinishRowSpec(s);
    if |f.rows| == 0 || !Aligned(GridOf(f)) then Cleared(f)
    else Cleared(f).(tables := f.tables + [Table(Scan(GridOf(f)))])
  }

  /**
   * `Page.parse`: a `td`/`th` (of any node kind) appends its column span,
   * its row span and its trimmed inner text to the open row, hidden or
   * not, and its subtree is not visited; `tr` and `table` close the open
   * row or table before their children are visited; every other node just
   * has its children visited.
   */
  function Visit(s: PageState, n: Node): PageState
    decreases n, 1
  {
    if IsCellTag(n.data) then
      s.(colSpan := s.colSpan + [IntAttr(n.attrs, "colspan", 1)],
         rowSpan := s.rowSpan + [IntAttr(n.attrs, "rowspan", 1)],
         row := s.row + [TrimSpace(InnerText(n))])
    else
      var s' := if n.data == "tr" then FinishRowSpec(s) else if n.data == "table" then FinishTableSpec(s) else s;
      VisitSeq(s', n.children)
  }

  function VisitSeq(s: PageState, cs: seq<Node>): PageState
    decreases cs, 0
  {
    if cs == [] then s else Visit(VisitSeq(s, cs[..|cs| - 1]), cs[|cs| - 1])
  }

  /** `init` after a successful HTML parse: the walk from an empty page, then the last table closed. */
  function PageTables(root: Node): seq<Table> {
    FinishTableSpec(Visit(Empty, root)).tables
  }

  // ---------------------------------------------------------------------
  // The page object

  class Page {
    var Tables: seq<Table>
    var rowSpans: seq<int>
    var colSpans: seq<int>
    var row: seq<string>
    var rows: seq<seq<string>>
    var maxCols: int
    var colSpan: seq<int>
    var rowSpan: seq<int>
    var cSpans: seq<seq<int>>
    var rSpans: seq<seq<int>>

    function State(): PageState
      reads this
    {
      PageState(Tables, rowSpans, colSpans, row, colSpan, rowSpan, rows, cSpans, rSpans, maxCols)
    }

    predicate Valid()
      reads this
    {
      Invariant(State())
    }

    /** `&Page{}`: every field at its zero value. */
    constructor ()
      ensures State() == Empty
      ensures Valid()
    {
      Tables := [];
      rowSpans := [];
      colSpans := [];
      row := [];
      rows := [];
      maxCols := 0;
      colSpan := [];
      rowSpan := [];
      cSpans := [];
      rSpans := [];
    }

    /** `Len`: the number of tables found. */
    function Len(): (n: nat)
      reads this
      ensures n == |State().tables|
    {
      |Tables|
    }

    /** `init`: a failed HTML parse is returned and leaves the page untouched; otherwise the tree is walked and the last table closed. */
    method Init(parsed: Result<Node, string>) returns (err: Option<string>)
      requires Valid()
      modifies this
      ensures Valid()
      ensures parsed.Failure? ==> err == Some(parsed.error) && State() == old(State())
      ensures parsed.Success? ==> err == None && State() == FinishTableSpec(Visit(old(State()), parsed.value))
    {
      if parsed.Failure? {
        return Some(parsed.error);
      }
      Parse(parsed.value);
      FinishTable();
      return None;
    }

    /** `parse` */
    method Parse(n: Node)
      requires Valid()
      modifies this
      ensures Valid()
      ensures State() == Visit(old(State()), n)
      decreases n
    {
      ghost var s := State();
      if IsCellTag(n.data) {
        var c := IntAttrOr(n, "colspan", 1);
        colSpan := colSpan + [c];
        var r := IntAttrOr(n, "rowspan", 1);
        rowSpan := rowSpan + [r];
        var sb := WriteInnerText(n, "");
        assert sb == InnerText(n);
        row := row + [TrimSpace(sb)];
        assert State() == Visit(s, n);
        return;
      } else if n.data == "tr" {
        FinishRow();
      } else if n.data == "table" {
        FinishTable();
      }
      ghost var start := State();
      var i := 0;
      while i < |n.children|
        invariant 0 <= i <= |n.children|
        invariant Valid()
        invariant State() == VisitSeq(start, n.children[..i])
      {
        var c := n.children[i];
        assert c in n.children;
        Parse(c);
        VisitSeqStep(start, n.children, i);
        i := i + 1;
      }
      assert n.children[..i] == n.children;
      assert Visit(s, n) == VisitSeq(start, n.children);
    }

    /** `intAttrOr`: the attributes are tried in order and the first with the key decides. */
    method IntAttrOr(n: Node, attr: string, default: int) returns (v: int)
      ensures v == IntAttr(n.attrs, attr, default)
    {
      for k := 0 to |n.attrs|
        invariant IntAttr(n.attrs, attr, default) == IntAttr(n.attrs[k..], attr, default)
      {
        var a := n.attrs[k];
        assert n.attrs[k..][0] == a && n.attrs[k..][1..] == n.attrs[k + 1..];
        if a.key != attr {
          continue;
        }
        var val := Atoi(a.val);
        if val.None? {
          return default;
        }
        return val.value;
      }
      return default;
    }

    /** `finishRow` */
    method FinishRow()
      requires Valid()
      modifies this
      ensures Valid()
      ensures State() == FinishRowSpec(old(State()))
    {
      ghost var s := State();
      FinishRowKeepsInvariant(s);
      if |row| == 0 {
        return;
      }
      if |row| > maxCols {
        maxCols := |row|;
      }
      rows := rows + [row];
      cSpans := cSpans + [colSpan];
      rSpans := rSpans + [rowSpan];
      row := [];
      colSpan := [];
      rowSpan := [];
      assert State() == FinishRowSpec(s);
    }

    /** `finishTable`: closes the open row; when rows are buffered, their scan is appended as a table; the deferred reset then clears the buffers. */
    method FinishTable()
      requires Valid()
      modifies this
      ensures Valid()
      ensures State() == FinishTableSpec(old(State()))
    {
      ghost var s := State();
      FinishTableKeepsInvariant(s);
      FinishRow();
      ghost var f := State();
      assert FinishTableSpec(s) == if |f.rows| == 0 then Cleared(f) else Cleared(f).(tables := f.tables + [Table(Scan(GridOf(f)))]);
      if |rows| > 0 {
        var data := ScanTable(Grid(rows, rSpans, cSpans, maxCols));
        Tables := Tables + [Table(data)];
      }
      rows := [];
      colSpans := [];
      rowSpans := [];
      cSpans := [];
      rSpans := [];
      maxCols := 0;
      assert State() == Cleared(f).(tables := Tables);
    }
  }

  /**
   * The row loop of `finishTable`: each row is scanned with the spans the
   * rows above recorded. `maxCols` is widened to a longer output row, which
   * never exists, so the scan width stays fixed.
   */
  method ScanTable(t: Grid) returns (rows: seq<seq<string>>)
    requires Aligned(t) && 0 <= t.width
    ensures rows == Scan(t)
  {
    rows := [];
    var allSpans: seq<CellSpan> := [];
    var maxCols := t.width;
    for y := 0 to |t.rows|
      invariant maxCols == t.width
      invariant ScanRows(t, y, allSpans, rows) == Scan(t)
    {
      ScanRowShape(t, y, 0, 0, allSpans, []);
      var currentRow, spans := ScanRowCells(t.(width := maxCols), y, allSpans);
      if |currentRow| > maxCols {
        maxCols := |currentRow|;
      }
      rows := rows + [currentRow];
      allSpans := spans;
    }
  }

  /**
   * The column loop of `finishTable` for row `y`: a position covered by a
   * recorded span repeats its value; otherwise, unless the row's declared
   * cells ran out, the next one is taken and recorded as a span when it
   * spans more than one row or column.
   */
  method ScanRowCells(t: Grid, y: nat, sp: seq<CellSpan>) returns (currentRow: seq<string>, allSpans: seq<CellSpan>)
    requires Aligned(t) && y < |t.rows| && 0 <= t.width
    ensures currentRow == ScanRow(t, y, 0, 0, sp, []).values
    ensures allSpans == ScanRow(t, y, 0, 0, sp, []).spans
  {
    currentRow := [];
    allSpans := sp;
    var j := 0;
    for x := 0 to t.width
      invariant j <= |t.rows[y]|
      invariant ScanRow(t, y, x, j, allSpans, currentRow) == ScanRow(t, y, 0, 0, sp, [])
    {
      var value, ok := Value(allSpans, x, y);
      if ok {
        currentRow := currentRow + [value];
        continue;
      }
      if |t.rSpans[y]| == j {
        break;
      }
      var rowSpan := t.rSpans[y][j];
      var colSpan := t.cSpans[y][j];
      value := t.rows[y][j];
      if rowSpan > 1 || colSpan > 1 {
        allSpans := allSpans + [CellSpan(x, x + colSpan, y, y + rowSpan, value)];
      }
      currentRow := currentRow + [value];
      j := j + 1;
    }
  }

  /** `New`: a fresh page run over the outcome of the HTML parse; the page is returned together with the parse error, if any. */
  method New(parsed: Result<Node, string>) returns (p: Page, err: Option<string>)
    ensures fresh(p) && p.Valid()
    ensures parsed.Failure? ==> err == Some(parsed.error) && p.Len() == 0
    ensures parsed.Success? ==> err == None && p.Tables == PageTables(parsed.value)
  {
    p := new Page();
    err := p.Init(parsed);
  }

  // ---------------------------------------------------------------------
  // Lemmas

  /** Visiting one more child continues the walk over the ones before it. */
  lemma VisitSeqStep(s: PageState, cs: seq<Node>, i: nat)
    requires i < |cs|
    ensures VisitSeq(s, cs[..i + 1]) == Visit(VisitSeq(s, cs[..i]), cs[i])
  {
    assert cs[..i + 1][..i] == cs[..i];
  }

  /** `IntAttr` is decided by the first attribute with the key: the default when there is none, or when its value does not parse. */
  lemma {:induction false} IntAttrFirstKey(attrs: seq<Attribute>, name: string, default: int)
    ensures (forall k :: 0 <= k < |attrs| ==> attrs[k].key != name) ==> IntAttr(attrs, name, default) == default
    ensures forall k :: 0 <= k < |attrs| && attrs[k].key == name && (forall m :: 0 <= m < k ==> attrs[m].key != name) ==>
      IntAttr(attrs, name, default) == (if Atoi(attrs[k].val).Some? then Atoi(attrs[k].val).value else default)
  {
    if attrs != [] && attrs[0].key != name {
      IntAttrFirstKey(attrs[1..], name, default);
      assert forall k :: 1 <= k < |attrs| ==> attrs[1..][k - 1] == attrs[k];
    }
  }

  lemma FinishRowKeepsInvariant(s: PageState)
    requires Invariant(s)
    ensures Invariant(FinishRowSpec(s))
  {
    if |s.row| > 0 {
      var rs := s.rows + [s.row];
      assert rs[..|rs| - 1] == s.rows;
    }
  }

  lemma FinishTableKeepsInvariant(s: PageState)
    requires Invariant(s)
    ensures Invariant(FinishTableSpec(s))
  {
    FinishRowKeepsInvariant(s);
    var f := FinishRowSpec(s);
    if |f.rows| > 0 {
      ScanShape(GridOf(f));
    }
  }

  /** The page's invariant holds after visiting any subtree. */
  lemma {:induction false} VisitKeepsInvariant(s: PageState, n: Node)
    requires Invariant(s)
    ensures Invariant(Visit(s, n))
    decreases n, 1
  {
    if !IsCellTag(n.data) {
      FinishRowKeepsInvariant(s);
      FinishTableKeepsInvariant(s);
      var s' := if n.data == "tr" then FinishRowSpec(s) else if n.data == "table" then FinishTableSpec(s) else s;
      VisitSeqKeepsInvariant(s', n.children);
    }
  }

  lemma {:induction false} VisitSeqKeepsInvariant(s: PageState, cs: seq<Node>)
    requires Invariant(s)
    ensures Invariant(VisitSeq(s, cs))
    decreases cs, 0
  {
    if cs != [] {
      VisitSeqKeepsInvariant(s, cs[..|cs| - 1]);
      VisitKeepsInvariant(VisitSeq(s, cs[..|cs| - 1]), cs[|cs| - 1]);
    }
  }

  /** Every table a page yields has at least one row. */
  lemma PageTablesNonEmpty(root: Node)
    ensures forall t :: 0 <= t < |PageTables(root)| ==> PageTables(root)[t].rows != []
  {
    VisitKeepsInvariant(Empty, root);
    FinishTableKeepsInvariant(Visit(Empty, root));
  }

  /**
   * Closing a table empties the buffers; a table is appended exactly when a
   * row was buffered (closed or open), with one row per buffered row and
   * no row wider than the widest buffered row.
   */
  lemma FinishTableShape(s: PageState)
    requires Invariant(s)
    ensures var r := FinishTableSpec(s);
      && r.row == [] && r.colSpan == [] && r.rowSpan == []
      && r.colSpans == [] && r.rowSpans == []
      && r.rows == [] && r.cSpans == [] && r.rSpans == [] && r.maxCols == 0
      && s.tables <= r.tables
    ensures s.rows == [] && s.row == [] ==> FinishTableSpec(s).tables == s.tables
    ensures s.rows != [] || s.row != [] ==>
      var f := FinishRowSpec(s);
      var t := FinishTableSpec(s).tables;
      && |t| == |s.tables| + 1
      && |t[|s.tables|].rows| == |s.rows| + (if s.row == [] then 0 else 1)
      && forall i :: 0 <= i < |t[|s.tables|].rows| ==> |t[|s.tables|].rows[i]| <= f.maxCols
  {
    FinishRowKeepsInvariant(s);
    var f := FinishRowSpec(s);
    if f.rows != [] {
      ScanShape(GridOf(f));
    }
  }

  /** The closed rows line up with their spans, and every cell of them declares spans of at most 1. */
  predicate PlainRows(s: PageState) {
    && Aligned(GridOf(s))
    && forall i :: 0 <= i < |s.rows| ==> PlainRow(GridOf(s), i)
  }

  /**
   * Rows, the open one included, whose cells all span one row and one
   * column come back as a table exactly as declared.
   */
  lemma FinishPlainTable(s: PageState)
    requires Invariant(s) && FinishRowSpec(s).rows != []
    requires PlainRows(FinishRowSpec(s))
    ensures FinishTableSpec(s).tables == s.tables + [Table(FinishRowSpec(s).rows)]
  {
    FinishRowKeepsInvariant(s);
    var f := FinishRowSpec(s);
    MaxLenIsMax(f.rows);
    ScanPlainTable(GridOf(f));
  }

  /**
   * Unlike parse.go, a cell whose style hides it is still collected, and
   * the first attribute with a span's name decides, even when a later one
   * parses.
   */
  lemma CellIsAlwaysCollected(s: PageState, tag: string, attrs: seq<Attribute>, cs: seq<Node>)
    requires IsCellTag(tag)
    ensures Visit(s, Element(tag, attrs, cs)).row == s.row + [TrimSpace(InnerText(Element(tag, attrs, cs)))]
    ensures |Visit(s, Element(tag, attrs, cs)).colSpan| == |s.colSpan| + 1
    ensures Visit(s, Element(tag, attrs, cs)).rows == s.rows
  {
  }

  /** A span attribute that does not parse yields the default even when a later one with the same key parses. */
  lemma FirstUnparsableWins(bad: string, later: nat)
    requires Atoi(bad).None?
    requires later <= MaxInt64
    ensures IntAttr([Attribute("colspan", bad), Attribute("colspan", Decimal(later))], "colspan", 1) == 1
  {
  }
}

=== FILE: parser.dfy ===
/**
 * The table extractor of parse.go: a depth-first walk over the document
 * that buffers `<td>`/`<th>` cells into rows, closes a row at each `<tr>`
 * and turns the buffered rows into a table at each `<table>` and at the end
 * of the document.
 */
module HtmlTable {
  import opened Wrappers
  import opened GoText
  import opened Html
  import opened Attributes
  import opened CarryoverGrid
  import opened Widths

  /** The cells of one `<tr>`, in document order. */
  type Row = seq<Cell>

  /** A finished table: rows of trimmed cell texts, spans expanded. */
  type Table = seq<seq<string>>

  /** The parser's fields as one value: the finished tables, the open row, the closed rows of the open table, the widest closed row. */
  datatype ParserState = ParserState(tables: seq<Table>, currentRow: Row, rows: seq<Row>, maxCols: int)

  /** A parser as `New` creates it: no tables, nothing buffered. */
  const Empty := ParserState([], [], [], 0)

  /** All cells of the rows, row after row. */
  function Flatten(rows: seq<Row>): seq<Cell> {
    if rows == [] then [] else Flatten(rows[..|rows| - 1]) + rows[|rows| - 1]
  }

  /**
   * What the parser keeps true between calls: `maxCols` is the width of
   * the widest closed row, no closed row is empty and no finished table is
   * empty.
   */
  predicate Invariant(s: ParserState) {
    && s.maxCols == MaxLen(s.rows)
    && (forall i :: 0 <= i < |s.rows| ==> s.rows[i] != [])
    && (forall t :: 0 <= t < |s.tables| ==> s.tables[t] != [])
  }

  // ---------------------------------------------------------------------
  // Specification of the walk

  /** `finishRow`: a non-empty open row is closed and `maxCols` widened to it; an empty one is ignored. */
  function FinishRowSpec(s: ParserState): ParserState {
    if |s.currentRow| == 0 then s
    else
      s.(maxCols := if |s.currentRow| > s.maxCols then |s.currentRow| else s.maxCols,
         rows := s.rows + [s.currentRow],
         currentRow := [])
  }

  /** `finishTable`: closes the open row; if any row is buffered, appends their reconstruction as a table and clears the buffers. */
  function FinishTableSpec(s: ParserState): ParserState {
    var f := FinishRowSpec(s);
    if |f.rows| == 0 then f
    else ParserState(f.tables + [Reconstruct(f.rows, [])], [], [], 0)
  }

  /** The cell a visible `<td>`/`<th>` contributes: its trimmed inner text and its declared spans. */
  function CellOf(n: Node): Cell {
    Cell(TrimSpace(InnerText(n)), SpanOr(n.attrs, "rowspan"), SpanOr(n.attrs, "colspan"))
  }

  /**
   * `traverse`: the switch is on the node's data whatever its kind. A cell
   * is buffered unless hidden and its subtree is not visited; `tr` and
   * `table` close the open row or table before their children are visited;
   * every other node just has its children visited.
   */
  function Walk(s: ParserState, n: Node): ParserState
    decreases n, 1
  {
    if IsCellTag(n.data) then
      if Hidden(n.attrs) then s else s.(currentRow := s.currentRow + [CellOf(n)])
    else
      var s' := if n.data == "tr" then FinishRowSpec(s) else if n.data == "table" then FinishTableSpec(s) else s;
      WalkSeq(s', n.children)
  }

  function WalkSeq(s: ParserState, cs: seq<Node>): ParserState
    decreases cs, 0
  {
    if cs == [] then s else Walk(WalkSeq(s, cs[..|cs| - 1]), cs[|cs| - 1])
  }

  /** `parse` after a successful HTML parse: the walk from an empty parser, then the last table closed. */
  function ParseTables(root: Node): seq<Table> {
    FinishTableSpec(Walk(Empty, root)).tables
  }

  // ---------------------------------------------------------------------
  // The parser object

  class Parser {
    var Tables: seq<Table>
    var currentRow: Row
    var rows: seq<Row>
    var maxCols: int

    function State(): ParserState
      reads this
    {
      ParserState(Tables, currentRow, rows, maxCols)
    }

    predicate Valid()
      reads this
    {
      Invariant(State())
    }

    /** `Parser{Tables: nil}`: every field at its zero value. */
    constructor ()
      ensures State() == Empty
      ensures Valid()
    {
      Tables := [];
      currentRow := [];
      rows := [];
      maxCols := 0;
    }

    /** `parse`: a failed HTML parse is returned unchanged and leaves the parser untouched; otherwise the tree is walked and the last table closed. */
    method Parse(parsed: Result<Node, string>) returns (err: Option<string>)
      requires Valid()
      modifies this
      ensures Valid()
      ensures parsed.Failure? ==> err == Some(parsed.error) && State() == old(State())
      ensures parsed.Success? ==> err == None && State() == FinishTableSpec(Walk(old(State()), parsed.value))
    {
      if parsed.Failure? {
        return Some(parsed.error);
      }
      Traverse(parsed.value);
      FinishTable();
      return None;
    }

    /** `traverse` */
    method Traverse(n: Node)
      requires Valid()
      modifies this
      ensures Valid()
      ensures State() == Walk(old(State()), n)
      decreases n
    {
      if IsCellTag(n.data) {
        var rowspan, colspan, isDisplayNone := GetAttributes(n);
        if isDisplayNone {
          return;
        }
        var sb := WriteInnerText(n, "");
        assert sb == InnerText(n);
        var cell := Cell(TrimSpace(sb), rowspan, colspan);
        assert cell == CellOf(n);
        currentRow := currentRow + [cell];
        return;
      } else if n.data == "tr" {
        FinishRow();
      } else if n.data == "table" {
        FinishTable();
      }
      ghost var start := State();
      var i := 0;
      while i < |n.children|
        invariant 0 <= i <= |n.children|
        invariant Valid()
        invariant State() == WalkSeq(start, n.children[..i])
      {
        var c := n.children[i];
        assert c in n.children;
        ghost var mid := State();
        Traverse(c);
        WalkSeqStep(start, n.children, i);
        i := i + 1;
      }
      assert n.children[..i] == n.children;
      assert Walk(old(State()), n) == WalkSeq(start, n.children);
    }

    /** `finishRow` */
    method FinishRow()
      requires Valid()
      modifies this
      ensures Valid()
      ensures State() == FinishRowSpec(old(State()))
    {
      FinishRowKeepsInvariant(State());
      if |currentRow| == 0 {
        return;
      }
      if |currentRow| > maxCols {
        maxCols := |currentRow|;
      }
      rows := rows + [currentRow];
      currentRow := [];
    }

    /** `finishTable`: closes the open row; when rows are buffered, their reconstruction is appended as a table and the buffers are cleared. */
    method FinishTable()
      requires Valid()
      modifies this
      ensures Valid()
      ensures State() == FinishTableSpec(old(State()))
    {
      FinishTableKeepsInvariant(State());
      FinishRow();
      ghost var f := State();
      assert FinishTableSpec(old(State())) == if |f.rows| == 0 then f else ParserState(f.tables + [Reconstruct(f.rows, [])], [], [], 0);
      if |rows| == 0 {
        return;
      }
      var tableData := BuildTableData(rows);
      Tables := Tables + [tableData];
      maxCols := 0;
      currentRow := [];
      rows := [];
    }
  }

  /**
   * The row loop of `finishTable`: each buffered row is rebuilt against the
   * carryovers the previous row handed over, and hands over its own.
   */
  method BuildTableData(rows: seq<Row>) returns (tableData: seq<seq<string>>)
    ensures tableData == Reconstruct(rows, [])
  {
    tableData := [];
    var rowCarryover: seq<Carryover> := [];
    for r := 0 to |rows|
      invariant tableData + Reconstruct(rows[r..], rowCarryover) == Reconstruct(rows, [])
    {
      var rowData, nextRowCarryover := BuildRowData(rowCarryover, rows[r]);
      assert rows[r..][0] == rows[r] && rows[r..][1..] == rows[r + 1..];
      tableData := tableData + [rowData];
      rowCarryover := nextRowCarryover;
    }
    assert rows[|rows|..] == [];
  }

  /**
   * One pass of the row loop of `finishTable`: the declared cells placed in
   * order against the carryovers from the previous row, then the
   * carryovers still pending written at the end of the row. Returns the
   * row's values and the carryovers for the next row.
   */
  method BuildRowData(rowCarryover: seq<Carryover>, row: Row) returns (rowData: seq<string>, nextRowCarryover: seq<Carryover>)
    ensures rowData == BuildRow(rowCarryover, row).data
    ensures nextRowCarryover == BuildRow(rowCarryover, row).next
  {
    var b := RowBuild([], rowCarryover, [], 0);
    for j := 0 to |row|
      invariant PlaceAll(b, row[j..]) == PlaceAll(RowBuild([], rowCarryover, [], 0), row)
    {
      assert row[j..][0] == row[j] && row[j..][1..] == row[j + 1..];
      b := PlaceCell(b, row[j]);
    }
    assert row[|row|..] == [];
    var pending := b.pending;
    b := b.(pending := []);
    for k := 0 to |pending|
      invariant Drain(b, pending[k..]) == BuildRow(rowCarryover, row)
    {
      var co := pending[k];
      assert pending[k..][0] == co && pending[k..][1..] == pending[k + 1..];
      ghost var before := b;
      b := b.(data := b.data + [co.value]);
      if co.rowSpan > 1 {
        b := b.(next := b.next + [Carryover(co.value, co.index, co.rowSpan - 1)]);
      }
      assert b == Emit(before, co);
    }
    assert pending[|pending|..] == [];
    return b.data, b.next;
  }

  /**
   * The body of the cell loop of `finishTable`: first the carryovers at the
   * head of the pending list whose column is at most the cursor are popped
   * and written (the cursor does not move), each re-registered for the
   * next row while it has rows left; then the cell is copied once per
   * column it spans, each copy registering a carryover at the cursor when
   * the cell spans more than one row, and advancing the cursor.
   */
  method PlaceCell(b: RowBuild, cell: Cell) returns (r: RowBuild)
    ensures r == Place(b, cell)
  {
    r := b;
    while |r.pending| > 0 && r.pending[0].index <= r.index
      invariant Flush(r) == Flush(b)
      decreases |r.pending|
    {
      var co := r.pending[0];
      r := r.(pending := r.pending[1..]);
      ghost var popped := r;
      r := r.(data := r.data + [co.value]);
      if co.rowSpan > 1 {
        r := r.(next := r.next + [Carryover(co.value, co.index, co.rowSpan - 1)]);
      }
      assert r == Emit(popped, co);
    }
    ghost var flushed := r;
    var i := 0;
    while i < cell.colSpan
      invariant i <= Width(cell)
      invariant r == Copies(flushed, cell, i)
      decreases cell.colSpan - i
    {
      r := r.(data := r.data + [cell.value]);
      if cell.rowSpan > 1 {
        r := r.(next := r.next + [Carryover(cell.value, r.index, cell.rowSpan - 1)]);
      }
      r := r.(index := r.index + 1);
      i := i + 1;
    }
  }

  /** `New`: a fresh parser run over the outcome of the HTML parse; a parse error is passed through and no tables are returned. */
  method New(parsed: Result<Node, string>) returns (r: Result<seq<Table>, string>)
    ensures parsed.Failure? ==> r == Failure(parsed.error)
    ensures parsed.Success? ==> r == Success(ParseTables(parsed.value))
  {
    var parser := new Parser();
    var err := parser.Parse(parsed);
    if err.Some? {
      return Failure(err.value);
    }
    return Success(parser.Tables);
  }

  // ---------------------------------------------------------------------
  // Lemmas

  /** Walking one more child continues the walk over the ones before it. */
  lemma WalkSeqStep(s: ParserState, cs: seq<Node>, i: nat)
    requires i < |cs|
    ensures WalkSeq(s, cs[..i + 1]) == Walk(WalkSeq(s, cs[..i]), cs[i])
  {
    assert cs[..i + 1][..i] == cs[..i];
  }

  lemma FinishRowKeepsInvariant(s: ParserState)
    requires Invariant(s)
    ensures Invariant(FinishRowSpec(s))
  {
    if |s.currentRow| > 0 {
      var rs := s.rows + [s.currentRow];
      assert rs[..|rs| - 1] == s.rows;
    }
  }

  lemma FinishTableKeepsInvariant(s: ParserState)
    requires Invariant(s)
    ensures Invariant(FinishTableSpec(s))
  {
    FinishRowKeepsInvariant(s);
    var f := FinishRowSpec(s);
    if |f.rows| > 0 {
      ReconstructRows(f.rows, []);
    }
  }

  /** A walk never removes or rewrites a finished table; it can only append. */
  lemma {:induction false} WalkExtendsTables(s: ParserState, n: Node)
    ensures s.tables <= Walk(s, n).tables
    decreases n, 1
  {
    if !IsCellTag(n.data) {
      var s' := if n.data == "tr" then FinishRowSpec(s) else if n.data == "table" then FinishTableSpec(s) else s;
      WalkSeqExtendsTables(s', n.children);
    }
  }

  lemma {:induction false} WalkSeqExtendsTables(s: ParserState, cs: seq<Node>)
    ensures s.tables <= WalkSeq(s, cs).tables
    decreases cs, 0
  {
    if cs != [] {
      WalkSeqExtendsTables(s, cs[..|cs| - 1]);
      WalkExtendsTables(WalkSeq(s, cs[..|cs| - 1]), cs[|cs| - 1]);
    }
  }

  /** The parser's invariant holds after walking any subtree. */
  lemma {:induction false} WalkKeepsInvariant(s: ParserState, n: Node)
    requires Invariant(s)
    ensures Invariant(Walk(s, n))
    decreases n, 1
  {
    if !IsCellTag(n.data) {
      FinishRowKeepsInvariant(s);
      FinishTableKeepsInvariant(s);
      var s' := if n.data == "tr" then FinishRowSpec(s) else if n.data == "table" then FinishTableSpec(s) else s;
      WalkSeqKeepsInvariant(s', n.children);
    }
  }

  lemma {:induction false} WalkSeqKeepsInvariant(s: ParserState, cs: seq<Node>)
    requires Invariant(s)
    ensures Invariant(WalkSeq(s, cs))
    decreases cs, 0
  {
    if cs != [] {
      WalkSeqKeepsInvariant(s, cs[..|cs| - 1]);
      WalkKeepsInvariant(WalkSeq(s, cs[..|cs| - 1]), cs[|cs| - 1]);
    }
  }

  /** Every table a document yields has at least one row. */
  lemma ParseTablesNonEmpty(root: Node)
    ensures forall t :: 0 <= t < |ParseTables(root)| ==> ParseTables(root)[t] != []
  {
    WalkKeepsInvariant(Empty, root);
    FinishTableKeepsInvariant(Walk(Empty, root));
  }

  /** Closing a row loses no cell: the closed rows followed by the open row hold the same cells before and after. */
  lemma FinishRowConservesCells(s: ParserState)
    ensures Flatten(FinishRowSpec(s).rows) + FinishRowSpec(s).currentRow == Flatten(s.rows) + s.currentRow
    ensures FinishRowSpec(s).currentRow == []
  {
    if |s.currentRow| > 0 {
      var rs := s.rows + [s.currentRow];
      assert rs[..|rs| - 1] == s.rows;
    }
  }

  /**
   * Closing a table empties the buffers; a table is appended exactly when a
   * row was buffered (closed or open), and it has one row per buffered row,
   * row `i` holding the carryovers that reach it and the columns its cells
   * span.
   */
  lemma FinishTableShape(s: ParserState)
    requires Invariant(s)
    ensures FinishTableSpec(s).currentRow == [] && FinishTableSpec(s).rows == [] && FinishTableSpec(s).maxCols == 0
    ensures s.tables <= FinishTableSpec(s).tables
    ensures s.rows == [] && s.currentRow == [] ==> FinishTableSpec(s).tables == s.tables
    ensures s.rows != [] || s.currentRow != [] ==>
      var f := FinishRowSpec(s);
      var t := FinishTableSpec(s).tables;
      && |t| == |s.tables| + 1
      && |t[|s.tables|]| == |s.rows| + (if s.currentRow == [] then 0 else 1)
      && forall i :: 0 <= i < |f.rows| ==> |t[|s.tables|][i]| == |CarryIn(f.rows, [], i)| + TotalWidth(f.rows[i])
  {
    var f := FinishRowSpec(s);
    if f.rows != [] {
      ReconstructRows(f.rows, []);
      forall i | 0 <= i < |f.rows|
        ensures |Reconstruct(f.rows, [])[i]| == |CarryIn(f.rows, [], i)| + TotalWidth(f.rows[i])
      {
        ReconstructRowLength(f.rows, [], i);
      }
    }
  }

  /** Closing a table twice is closing it once: the second call finds nothing buffered. */
  lemma FinishTableIdempotent(s: ParserState)
    ensures FinishTableSpec(FinishTableSpec(s)) == FinishTableSpec(s)
  {
  }

  /** No `td` or `th` anywhere in the subtree, whatever the node kinds. */
  predicate NoCells(n: Node)
    decreases n
  {
    !IsCellTag(n.data) && forall i :: 0 <= i < |n.children| ==> NoCells(n.children[i])
  }

  /** With nothing buffered, a subtree without cells changes nothing: `tr` and `table` find nothing to close. */
  lemma {:induction false} WalkWithoutCells(s: ParserState, n: Node)
    requires s.currentRow == [] && s.rows == []
    requires NoCells(n)
    ensures Walk(s, n) == s
    decreases n, 1
  {
    WalkSeqWithoutCells(s, n.children);
  }

  lemma {:induction false} WalkSeqWithoutCells(s: ParserState, cs: seq<Node>)
    requires s.currentRow == [] && s.rows == []
    requires forall i :: 0 <= i < |cs| ==> NoCells(cs[i])
    ensures WalkSeq(s, cs) == s
    decreases cs, 0
  {
    if cs != [] {
      WalkSeqWithoutCells(s, cs[..|cs| - 1]);
      WalkWithoutCells(s, cs[|cs| - 1]);
    }
  }

  /** A document without cells yields no table, even when it has `table` and `tr` elements. */
  lemma ParseWithoutCells(root: Node)
    requires NoCells(root)
    ensures ParseTables(root) == []
  {
    WalkWithoutCells(Empty, root);
  }

  lemma TrimmedWord(w: string)
    requires w != [] && !IsSpace(w[0]) && !IsSpace(w[|w| - 1])
    ensures TrimSpace(w) == w
    ensures TrimSpace(w + " ") == w
  {
    TrimSpaceUnique(w, 0, |w|);
    assert w[0..|w|] == w;
    TrimSpaceDropsTrailingBlank(w);
  }

  /**
   * The switch looks at the data of any node: a text node whose payload is
   * "td" or "th" is taken for a cell, with that text as its value and both
   * spans 1.
   */
  lemma TextNodeAsCell(s: ParserState, w: string)
    requires IsCellTag(w)
    ensures Walk(s, Text(w)) == s.(currentRow := s.currentRow + [Cell(w, 1, 1)])
  {
    CellOfText(w);
    assert !Hidden(Text(w).attrs);
  }

  /** A text node as a cell: its trimmed payload, both spans 1 for want of attributes. */
  lemma CellOfText(w: string)
    requires w != [] && !IsSpace(w[0]) && !IsSpace(w[|w| - 1])
    ensures CellOf(Text(w)) == Cell(w, 1, 1)
  {
    TrimmedWord(w);
    assert InnerText(Text(w)) == w + " ";
    assert LastSpan([], "rowspan") == None && LastSpan([], "colspan") == None;
  }

  /** The collected text of an element with three text children. */
  lemma ThreeTextsCollected(tag: string, attrs: seq<Attribute>, a: string, b: string, c: string)
    ensures InnerText(Element(tag, attrs, [Text(a), Text(b), Text(c)]))
         == (TrimSpace(a) + " ") + (TrimSpace(b) + " ") + (TrimSpace(c) + " ")
  {
    var cs := [Text(a), Text(b), Text(c)];
    assert cs[..2][..1] == [Text(a)] && cs[..2] == [Text(a), Text(b)] && cs[..1] == [Text(a)];
    assert ChildrenText(cs[..1]) == TrimSpace(a) + " ";
    assert ChildrenText(cs[..2]) == (TrimSpace(a) + " ") + (TrimSpace(b) + " ");
    assert cs[..|cs| - 1] == cs[..2];
    assert ChildrenText(cs) == ChildrenText(cs[..2]) + (TrimSpace(c) + " ");
  }

  /**
   * A blank text node between two words still contributes its (empty)
   * trimmed payload and one blank, so the words end up two blanks apart.
   */
  lemma BlankFragmentDoublesBlank(attrs: seq<Attribute>, w: string, v: string)
    requires w != [] && !IsSpace(w[0]) && !IsSpace(w[|w| - 1])
    requires v != [] && !IsSpace(v[0]) && !IsSpace(v[|v| - 1])
    ensures CellOf(Element("td", attrs, [Text(w), Text(" "), Text(v)])).value == w + "  " + v
  {
    var joined := w + "  " + v;
    assert InnerText(Element("td", attrs, [Text(w), Text(" "), Text(v)])) == joined + " " by {
      ThreeTextsCollected("td", attrs, w, " ", v);
      TrimmedWord(w);
      TrimmedWord(v);
      TrimSpaceOfBlank(" ");
    }
    assert joined[0] == w[0] && joined[|joined| - 1] == v[|v| - 1];
    TrimSpaceDropsTrailingBlank(joined);
  }

  /** `traverse` skips a hidden cell outright: neither it nor anything under it reaches the parser. */
  lemma HiddenCellSkipped(s: ParserState, tag: string, attrs: seq<Attribute>, cs: seq<Node>)
    requires IsCellTag(tag) && Hidden(attrs)
    ensures Walk(s, Element(tag, attrs, cs)) == s
  {
  }

  /**
   * A cell holding a text and then a footnote marker inside an element
   * (`<sup><a>[4]</a></sup>`) has the two trimmed texts joined by one blank
   * as its value.
   */
  lemma TextAndFootnote(attrs: seq<Attribute>, w: string, sup: string, supAttrs: seq<Attribute>,
                        a: string, aAttrs: seq<Attribute>, f: string)
    requires w != [] && !IsSpace(w[0]) && !IsSpace(w[|w| - 1])
    requires f != [] && !IsSpace(f[0]) && !IsSpace(f[|f| - 1])
    ensures CellOf(Element("td", attrs, [Text(w), Element(sup, supAttrs, [Element(a, aAttrs, [Text(f)])])])).value == w + " " + f
  {
    var an := Element(a, aAttrs, [Text(f)]);
    var sn := Element(sup, supAttrs, [an]);
    var cs := [Text(w), sn];
    var n := Element("td", attrs, cs);
    assert Texts(an) == [f] by {
      assert an.kind == ElementNode && [Text(f)][..0] == [];
      assert ChildrenTexts([Text(f)]) == ChildrenTexts([]) + Texts(Text(f));
    }
    assert Texts(sn) == [f] by {
      assert sn.kind == ElementNode && [an][..0] == [];
      assert ChildrenTexts([an]) == ChildrenTexts([]) + Texts(an);
    }
    assert cs[..1] == [Text(w)] && cs[..1][..0] == [];
    assert ChildrenTexts(cs[..1]) == [w];
    assert Texts(n) == [w, f];
    TrimmedWord(w);
    TrimmedWord(f);
    CellValueJoinsFragments(n);
    assert [w, f][..1] == [w];
  }

  /** `<table><tr><td>v</td></tr></table>` without the implied `tbody`. */
  function OneCellTable(v: string): Node {
    Element("table", [], [Element("tr", [], [Element("td", [], [Text(v)])])])
  }

  /** A `td` holding only a non-blank text yields that text with both spans 1. */
  lemma CellOfTextCell(v: string)
    requires v != [] && !IsSpace(v[0]) && !IsSpace(v[|v| - 1])
    ensures CellOf(Element("td", [], [Text(v)])) == Cell(v, 1, 1)
  {
    var n := Element("td", [], [Text(v)]);
    assert Texts(n) == [v] by {
      assert [Text(v)][..0] == [];
      assert ChildrenTexts([Text(v)]) == ChildrenTexts([]) + Texts(Text(v));
    }
    TrimmedWord(v);
    CellValueJoinsFragments(n);
    assert LastSpan([], "rowspan") == None && LastSpan([], "colspan") == None;
  }

  /** A `table` element first closes the table before it; its single cell is then left open. */
  lemma WalkOneCellTable(s: ParserState, v: string)
    requires v != [] && !IsSpace(v[0]) && !IsSpace(v[|v| - 1])
    ensures Walk(s, OneCellTable(v)) == FinishTableSpec(s).(currentRow := [Cell(v, 1, 1)])
  {
    var f := FinishTableSpec(s);
    var td := Element("td", [], [Text(v)]);
    var tr := Element("tr", [], [td]);
    CellOfTextCell(v);
    assert [td][..0] == [] && [tr][..0] == [];
    assert FinishRowSpec(f) == f;
    assert Walk(f, td) == f.(currentRow := [Cell(v, 1, 1)]);
    assert WalkSeq(f, [td]) == Walk(WalkSeq(f, []), td);
    assert Walk(f, tr) == WalkSeq(f, [td]);
    assert WalkSeq(f, [tr]) == Walk(WalkSeq(f, []), tr);
    assert Walk(s, OneCellTable(v)) == WalkSeq(f, [tr]);
  }

  /** A one-cell row with both spans 1 reconstructs to that value alone. */
  lemma OneCellReconstruct(v: string)
    ensures Reconstruct([[Cell(v, 1, 1)]], []) == [[v]]
  {
    var c := Cell(v, 1, 1);
    BuildRowWithoutCarry([c]);
    assert [c][1..] == [] && [[c]][1..] == [];
    assert Width(c) == 1 && Repeat(v, 1) == [v];
    assert Expand([c]) == [v];
    assert Reconstruct([[c]], []) == [BuildRow([], [c]).data] + Reconstruct([], BuildRow([], [c]).next);
  }

  /** Two sibling tables give two tables, in document order: the second `table` closes the first. */
  lemma TwoTables(v1: string, v2: string)
    requires v1 != [] && !IsSpace(v1[0]) && !IsSpace(v1[|v1| - 1])
    requires v2 != [] && !IsSpace(v2[0]) && !IsSpace(v2[|v2| - 1])
    ensures ParseTables(Node(OtherNode, "", [], [OneCellTable(v1), OneCellTable(v2)])) == [[[v1]], [[v2]]]
  {
    var t1, t2 := OneCellTable(v1), OneCellTable(v2);
    var cs := [t1, t2];
    WalkOneCellTable(Empty, v1);
    var s1 := Empty.(currentRow := [Cell(v1, 1, 1)]);
    assert FinishTableSpec(Empty) == Empty;
    WalkOneCellTable(s1, v2);
    OneCellReconstruct(v1);
    OneCellReconstruct(v2);
    var s2 := ParserState([[[v1]]], [Cell(v2, 1, 1)], [], 0);
    assert FinishRowSpec(s1).rows == [[Cell(v1, 1, 1)]];
    assert FinishTableSpec(s1) == ParserState([[[v1]]], [], [], 0);
    assert cs[..1] == [t1] && cs[..1][..0] == [];
    assert WalkSeq(Empty, [t1]) == s1;
    assert WalkSeq(Empty, cs) == Walk(s1, t2);
    assert Walk(Empty, Node(OtherNode, "", [], cs)) == s2;
    assert FinishRowSpec(s2).rows == [[Cell(v2, 1, 1)]];
    assert FinishTableSpec(s2) == ParserState([[[v1]], [[v2]]], [], [], 0);
  }
}

=== FILE: span_grid.dfy ===
/**
 * The grid reconstructor of page.go (`Page.finishTable`): the table is
 * scanned column by column up to a fixed width; a position covered by an
 * earlier spanning cell repeats that cell's value, any other position takes
 * the row's next declared cell, and a cell spanning more than one row or
 * column is remembered as a rectangle.
 */
module SpanGrid {
  import opened Wrappers

  /** `cellSpan`: the half-open rectangle `[beginX, endX) x [beginY, endY)` a spanning cell covers. */
  datatype CellSpan = CellSpan(beginX: int, endX: int, beginY: int, endY: int, value: string)

  /** `cellSpan.Match`: the checks in the order the source makes them. */
  predicate Match(d: CellSpan, x: int, y: int) {
    if d.beginX > x then false
    else if d.endX <= x then false
    else if d.beginY > y then false
    else if d.endY <= y then false
    else true
  }

  /** The value of the first span covering `(x, y)`, if any. */
  function FirstMatch(s: seq<CellSpan>, x: int, y: int): Option<string> {
    if s == [] then None
    else if Match(s[0], x, y) then Some(s[0].value)
    else FirstMatch(s[1..], x, y)
  }

  /** `spans.Value`: the spans are tried in order and the first that covers `(x, y)` gives the value; none gives `("", false)`. */
  method Value(s: seq<CellSpan>, x: int, y: int) returns (value: string, ok: bool)
    ensures ok <==> FirstMatch(s, x, y).Some?
    ensures ok ==> value == FirstMatch(s, x, y).value
    ensures !ok ==> value == ""
  {
    for k := 0 to |s|
      invariant FirstMatch(s, x, y) == FirstMatch(s[k..], x, y)
    {
      assert s[k..][1..] == s[k + 1..];
      if Match(s[k], x, y) {
        return s[k].value, true;
      }
    }
    return "", false;
  }

  /**
   * The rows of the table being finished as three parallel lists (the
   * cell values, their row spans and their column spans) and the scan
   * width, `maxCols`.
   */
  datatype Grid = Grid(rows: seq<seq<string>>, rSpans: seq<seq<int>>, cSpans: seq<seq<int>>, width: int)

  /** The three lists agree in shape, as the parser builds them in lock step. */
  predicate Aligned(t: Grid) {
    && |t.rSpans| == |t.rows| && |t.cSpans| == |t.rows|
    && forall y :: 0 <= y < |t.rows| ==> |t.rSpans[y]| == |t.rows[y]| && |t.cSpans[y]| == |t.rows[y]|
  }

  /** One output row so far: its values, every span recorded, and how many declared cells were taken. */
  datatype RowScan = RowScan(values: seq<string>, spans: seq<CellSpan>, consumed: nat)

  /**
   * The column loop for row `y` from column `x`, `j` declared cells taken:
   * a covered position repeats the span's value; otherwise the next
   * declared cell is taken, and recorded as a span when either span exceeds
   * 1; the loop stops at the width, or when the row's declared cells run
   * out at an uncovered position.
   */
  function ScanRow(t: Grid, y: nat, x: int, j: nat, sp: seq<CellSpan>, acc: seq<string>): RowScan
    requires Aligned(t) && y < |t.rows| && j <= |t.rows[y]|
    decreases t.width - x
  {
    if x >= t.width then RowScan(acc, sp, j)
    else match FirstMatch(sp, x, y)
      case Some(v) => ScanRow(t, y, x + 1, j, sp, acc + [v])
      case None =>
        if |t.rSpans[y]| == j then RowScan(acc, sp, j)
        else
          var rowSpan, colSpan, value := t.rSpans[y][j], t.cSpans[y][j], t.rows[y][j];
          var sp' := if rowSpan > 1 || colSpan > 1 then sp + [CellSpan(x, x + colSpan, y, y + rowSpan, value)] else sp;
          ScanRow(t, y, x + 1, j + 1, sp', acc + [value])
  }

  /** The row loop from row `y`: each row scanned from column 0 with the spans recorded so far. */
  function ScanRows(t: Grid, y: nat, sp: seq<CellSpan>, acc: seq<seq<string>>): seq<seq<string>>
    requires Aligned(t)
    decreases |t.rows| - y
  {
    if y >= |t.rows| then acc
    else
      var r := ScanRow(t, y, 0, 0, sp, []);
      ScanRows(t, y + 1, r.spans, acc + [r.values])
  }

  /** The finished table. */
  function Scan(t: Grid): seq<seq<string>>
    requires Aligned(t)
  {
    ScanRows(t, 0, [], [])
  }

  // ---------------------------------------------------------------------
  // Lemmas

  /** `Match` holds exactly inside the rectangle. */
  lemma MatchIsInside(d: CellSpan, x: int, y: int)
    ensures Match(d, x, y) <==> d.beginX <= x < d.endX && d.beginY <= y < d.endY
  {
  }

  /** `FirstMatch` finds the first covering span: `Some` exactly at the first match, `None` exactly when no span covers. */
  lemma {:induction false} FirstMatchIsFirst(s: seq<CellSpan>, x: int, y: int)
    ensures FirstMatch(s, x, y).None? <==> forall k :: 0 <= k < |s| ==> !Match(s[k], x, y)
    ensures FirstMatch(s, x, y).Some? ==>
      exists k :: 0 <= k < |s| && Match(s[k], x, y) && s[k].value == FirstMatch(s, x, y).value
               && forall m :: 0 <= m < k ==> !Match(s[m], x, y)
  {
    if s != [] && !Match(s[0], x, y) {
      FirstMatchIsFirst(s[1..], x, y);
      assert forall k :: 1 <= k < |s| ==> s[1..][k - 1] == s[k];
      if FirstMatch(s, x, y).Some? {
        var k :| 0 <= k < |s[1..]| && Match(s[1..][k], x, y) && s[1..][k].value == FirstMatch(s, x, y).value
                 && forall m :: 0 <= m < k ==> !Match(s[1..][m], x, y);
        assert forall m :: 0 <= m < k + 1 ==> !Match(s[m], x, y) by {
          forall m | 0 <= m < k + 1 ensures !Match(s[m], x, y) {
            if m > 0 { assert s[m] == s[1..][m - 1]; }
          }
        }
      }
    }
  }

  /**
   * A row scan never writes past the width, never takes more declared
   * cells than the row has, only adds spans, and stops short of the width
   * only when every declared cell was taken.
   */
  lemma {:induction false} ScanRowShape(t: Grid, y: nat, x: int, j: nat, sp: seq<CellSpan>, acc: seq<string>)
    requires Aligned(t) && y < |t.rows| && j <= |t.rows[y]|
    requires 0 <= x && |acc| == x
    ensures var r := ScanRow(t, y, x, j, sp, acc);
      && |r.values| <= (if t.width > x then t.width else x)
      && j <= r.consumed <= |t.rows[y]|
      && sp <= r.spans
      && (|r.values| < t.width ==> r.consumed == |t.rows[y]|)
    decreases t.width - x
  {
    if x < t.width {
      match FirstMatch(sp, x, y)
      case Some(v) =>
        ScanRowShape(t, y, x + 1, j, sp, acc + [v]);
      case None =>
        if |t.rSpans[y]| != j {
          var rowSpan, colSpan, value := t.rSpans[y][j], t.cSpans[y][j], t.rows[y][j];
          var sp' := if rowSpan > 1 || colSpan > 1 then sp + [CellSpan(x, x + colSpan, y, y + rowSpan, value)] else sp;
          ScanRowShape(t, y, x + 1, j + 1, sp', acc + [value]);
        }
    }
  }

  /** The declared cells the scan of row `y` takes from column `x` on, in the order it takes them. */
  ghost function Taken(t: Grid, y: nat, x: int, j: nat, sp: seq<CellSpan>): seq<string>
    requires Aligned(t) && y < |t.rows| && j <= |t.rows[y]|
    decreases t.width - x
  {
    if x >= t.width then []
    else match FirstMatch(sp, x, y)
      case Some(_) => Taken(t, y, x + 1, j, sp)
      case None =>
        if |t.rSpans[y]| == j then []
        else
          var rowSpan, colSpan, value := t.rSpans[y][j], t.cSpans[y][j], t.rows[y][j];
          var sp' := if rowSpan > 1 || colSpan > 1 then sp + [CellSpan(x, x + colSpan, y, y + rowSpan, value)] else sp;
          [value] + Taken(t, y, x + 1, j + 1, sp')
  }

  /**
   * The declared cells are consumed left to right, each once: those taken
   * are exactly the next ones after the first `j`, up to the count the scan
   * reports; a covered position takes none.
   */
  lemma {:induction false} ScanRowTakesInOrder(t: Grid, y: nat, x: int, j: nat, sp: seq<CellSpan>, acc: seq<string>)
    requires Aligned(t) && y < |t.rows| && j <= |t.rows[y]|
    ensures j <= ScanRow(t, y, x, j, sp, acc).consumed <= |t.rows[y]|
    ensures Taken(t, y, x, j, sp) == t.rows[y][j..ScanRow(t, y, x, j, sp, acc).consumed]
    decreases t.width - x
  {
    if x < t.width {
      match FirstMatch(sp, x, y)
      case Some(v) =>
        ScanRowTakesInOrder(t, y, x + 1, j, sp, acc + [v]);
      case None =>
        if |t.rSpans[y]| != j {
          var rowSpan, colSpan, value := t.rSpans[y][j], t.cSpans[y][j], t.rows[y][j];
          var sp' := if rowSpan > 1 || colSpan > 1 then sp + [CellSpan(x, x + colSpan, y, y + rowSpan, value)] else sp;
          ScanRowTakesInOrder(t, y, x + 1, j + 1, sp', acc + [value]);
          var c := ScanRow(t, y, x, j, sp, acc).consumed;
          assert t.rows[y][j..c] == [value] + t.rows[y][j + 1..c];
        }
    }
  }

  /** A row scan only appends to the values written so far. */
  lemma {:induction false} ScanRowExtends(t: Grid, y: nat, x: int, j: nat, sp: seq<CellSpan>, acc: seq<string>)
    requires Aligned(t) && y < |t.rows| && j <= |t.rows[y]|
    ensures acc <= ScanRow(t, y, x, j, sp, acc).values
    decreases t.width - x
  {
    if x < t.width {
      match FirstMatch(sp, x, y)
      case Some(v) =>
        ScanRowExtends(t, y, x + 1, j, sp, acc + [v]);
      case None =>
        if |t.rSpans[y]| != j {
          var rowSpan, colSpan, value := t.rSpans[y][j], t.cSpans[y][j], t.rows[y][j];
          var sp' := if rowSpan > 1 || colSpan > 1 then sp + [CellSpan(x, x + colSpan, y, y + rowSpan, value)] else sp;
          ScanRowExtends(t, y, x + 1, j + 1, sp', acc + [value]);
        }
    }
  }

  /**
   * Span `d` belongs to a declared cell of row `y`, from the `lo`-th on,
   * that the scan `r` took and wrote at column `d.beginX`, and that spans
   * more than one row or column: `d` covers `[b, b + colSpan) x [y, y + rowSpan)`
   * with the cell's value.
   */
  ghost predicate SpanOfTakenCell(t: Grid, y: nat, lo: nat, r: RowScan, d: CellSpan)
    requires Aligned(t) && y < |t.rows| && r.consumed <= |t.rows[y]|
  {
    && 0 <= d.beginX < |r.values|
    && exists i :: lo <= i < r.consumed && (t.rSpans[y][i] > 1 || t.cSpans[y][i] > 1)
         && r.values[d.beginX] == t.rows[y][i]
         && d == CellSpan(d.beginX, d.beginX + t.cSpans[y][i], y, y + t.rSpans[y][i], t.rows[y][i])
  }

  /** A cell taken from the `lo`-th on is also taken from any earlier `lo'` on. */
  lemma SpanOfTakenCellFrom(t: Grid, y: nat, lo: nat, lo': nat, r: RowScan, d: CellSpan)
    requires Aligned(t) && y < |t.rows| && r.consumed <= |t.rows[y]|
    requires lo' <= lo && SpanOfTakenCell(t, y, lo, r, d)
    ensures SpanOfTakenCell(t, y, lo', r, d)
  {
    var i :| lo <= i < r.consumed && (t.rSpans[y][i] > 1 || t.cSpans[y][i] > 1)
             && r.values[d.beginX] == t.rows[y][i]
             && d == CellSpan(d.beginX, d.beginX + t.cSpans[y][i], y, y + t.rSpans[y][i], t.rows[y][i]);
    assert lo' <= i;
  }

  /** The span a scan records on taking a wide or tall cell at column `x` is that cell's. */
  lemma ScanRowRecordsNewSpan(t: Grid, y: nat, x: int, j: nat, sp: seq<CellSpan>, acc: seq<string>)
    requires Aligned(t) && y < |t.rows| && j < |t.rows[y]|
    requires 0 <= x < t.width && |acc| == x && FirstMatch(sp, x, y).None?
    requires t.rSpans[y][j] > 1 || t.cSpans[y][j] > 1
    ensures var r := ScanRow(t, y, x, j, sp, acc);
      && r.consumed <= |t.rows[y]|
      && |sp| < |r.spans| && r.spans[|sp|].beginX == x
      && SpanOfTakenCell(t, y, j, r, r.spans[|sp|])
  {
    var value := t.rows[y][j];
    var d := CellSpan(x, x + t.cSpans[y][j], y, y + t.rSpans[y][j], value);
    var sp' := sp + [d];
    var r := ScanRow(t, y, x, j, sp, acc);
    assert r == ScanRow(t, y, x + 1, j + 1, sp', acc + [value]);
    ScanRowShape(t, y, x + 1, j + 1, sp', acc + [value]);
    ScanRowExtends(t, y, x + 1, j + 1, sp', acc + [value]);
    assert (acc + [value])[x] == value;
    assert r.spans[|sp|] == d;
    assert r.values[x] == value;
  }

  /** Declared cell `i` of row `y` has a span among `spans` from the `lo`-th on: its rectangle, with its value. */
  ghost predicate CellRecorded(t: Grid, y: nat, i: nat, spans: seq<CellSpan>, lo: nat)
    requires Aligned(t) && y < |t.rows| && i < |t.rows[y]|
  {
    exists k :: lo <= k < |spans|
      && spans[k] == CellSpan(spans[k].beginX, spans[k].beginX + t.cSpans[y][i], y, y + t.rSpans[y][i], t.rows[y][i])
  }

  lemma CellRecordedFrom(t: Grid, y: nat, i: nat, spans: seq<CellSpan>, lo: nat, lo': nat)
    requires Aligned(t) && y < |t.rows| && i < |t.rows[y]|
    requires lo' <= lo && CellRecorded(t, y, i, spans, lo)
    ensures CellRecorded(t, y, i, spans, lo')
  {
    var k :| lo <= k < |spans|
      && spans[k] == CellSpan(spans[k].beginX, spans[k].beginX + t.cSpans[y][i], y, y + t.rSpans[y][i], t.rows[y][i]);
    assert lo' <= k;
  }

  /** Every declared cell the scan takes that spans more than one row or column is recorded. */
  lemma {:induction false} ScanRowRecordsEvery(t: Grid, y: nat, x: int, j: nat, sp: seq<CellSpan>, acc: seq<string>)
    requires Aligned(t) && y < |t.rows| && j <= |t.rows[y]|
    requires 0 <= x && |acc| == x
    ensures var r := ScanRow(t, y, x, j, sp, acc);
      && r.consumed <= |t.rows[y]|
      && forall i :: j <= i < r.consumed && (t.rSpans[y][i] > 1 || t.cSpans[y][i] > 1) ==>
           CellRecorded(t, y, i, r.spans, |sp|)
    decreases t.width - x
  {
    ScanRowShape(t, y, x, j, sp, acc);
    if x < t.width {
      match FirstMatch(sp, x, y)
      case Some(v) =>
        ScanRowRecordsEvery(t, y, x + 1, j, sp, acc + [v]);
      case None =>
        if |t.rSpans[y]| != j {
          var rowSpan, colSpan, value := t.rSpans[y][j], t.cSpans[y][j], t.rows[y][j];
          var d := CellSpan(x, x + colSpan, y, y + rowSpan, value);
          var sp' := if rowSpan > 1 || colSpan > 1 then sp + [d] else sp;
          var r := ScanRow(t, y, x, j, sp, acc);
          assert r == ScanRow(t, y, x + 1, j + 1, sp', acc + [value]);
          ScanRowRecordsEvery(t, y, x + 1, j + 1, sp', acc + [value]);
          forall i | j + 1 <= i < r.consumed && (t.rSpans[y][i] > 1 || t.cSpans[y][i] > 1)
            ensures CellRecorded(t, y, i, r.spans, |sp|)
          {
            CellRecordedFrom(t, y, i, r.spans, |sp'|, |sp|);
          }
          if sp' != sp {
            ScanRowShape(t, y, x + 1, j + 1, sp', acc + [value]);
            assert r.spans[|sp|] == sp'[|sp|] == d;
            assert CellRecorded(t, y, j, r.spans, |sp|);
          }
        }
    }
  }

  /** Every span a row scan records starts at a column the scan reached and belongs to a spanning cell it took. */
  lemma {:induction false} ScanRowSpansTaken(t: Grid, y: nat, x: int, j: nat, sp: seq<CellSpan>, acc: seq<string>)
    requires Aligned(t) && y < |t.rows| && j <= |t.rows[y]|
    requires 0 <= x && |acc| == x
    ensures var r := ScanRow(t, y, x, j, sp, acc);
      && r.consumed <= |t.rows[y]|
      && forall k :: |sp| <= k < |r.spans| ==> x <= r.spans[k].beginX && SpanOfTakenCell(t, y, j, r, r.spans[k])
    decreases t.width - x
  {
    ScanRowShape(t, y, x, j, sp, acc);
    if x < t.width {
      match FirstMatch(sp, x, y)
      case Some(v) =>
        ScanRowSpansTaken(t, y, x + 1, j, sp, acc + [v]);
      case None =>
        if |t.rSpans[y]| != j {
          var rowSpan, colSpan, value := t.rSpans[y][j], t.cSpans[y][j], t.rows[y][j];
          var sp' := if rowSpan > 1 || colSpan > 1 then sp + [CellSpan(x, x + colSpan, y, y + rowSpan, value)] else sp;
          ScanRowSpansTaken(t, y, x + 1, j + 1, sp', acc + [value]);
          var r := ScanRow(t, y, x, j, sp, acc);
          assert r == ScanRow(t, y, x + 1, j + 1, sp', acc + [value]);
          forall k | |sp'| <= k < |r.spans|
            ensures SpanOfTakenCell(t, y, j, r, r.spans[k])
          {
            SpanOfTakenCellFrom(t, y, j + 1, j, r, r.spans[k]);
          }
          if sp' != sp {
            ScanRowRecordsNewSpan(t, y, x, j, sp, acc);
          }
        }
    }
  }

  /**
   * The spans a row scan records are exactly those of the spanning cells it
   * takes: every recorded span starts at a column the scan reached and
   * belongs to a declared cell the scan took and wrote at that column, and
   * every taken cell spanning more than one row or column is recorded.
   */
  lemma ScanRowRecords(t: Grid, y: nat, x: int, j: nat, sp: seq<CellSpan>, acc: seq<string>)
    requires Aligned(t) && y < |t.rows| && j <= |t.rows[y]|
    requires 0 <= x && |acc| == x
    ensures var r := ScanRow(t, y, x, j, sp, acc);
      && sp <= r.spans
      && r.consumed <= |t.rows[y]|
      && (forall k :: |sp| <= k < |r.spans| ==> x <= r.spans[k].beginX && SpanOfTakenCell(t, y, j, r, r.spans[k]))
      && forall i :: j <= i < r.consumed && (t.rSpans[y][i] > 1 || t.cSpans[y][i] > 1) ==>
           CellRecorded(t, y, i, r.spans, |sp|)
  {
    ScanRowShape(t, y, x, j, sp, acc);
    ScanRowSpansTaken(t, y, x, j, sp, acc);
    ScanRowRecordsEvery(t, y, x, j, sp, acc);
  }

  /** The row loop adds exactly one output row per remaining row, each at most `width` long. */
  lemma {:induction false} ScanRowsShape(t: Grid, y: nat, sp: seq<CellSpan>, acc: seq<seq<string>>)
    requires Aligned(t) && y <= |t.rows|
    requires forall i :: 0 <= i < |acc| ==> |acc[i]| <= (if t.width > 0 then t.width else 0)
    ensures |ScanRows(t, y, sp, acc)| == |acc| + |t.rows| - y
    ensures acc <= ScanRows(t, y, sp, acc)
    ensures forall i :: 0 <= i < |ScanRows(t, y, sp, acc)| ==>
      |ScanRows(t, y, sp, acc)[i]| <= (if t.width > 0 then t.width else 0)
    decreases |t.rows| - y
  {
    if y < |t.rows| {
      var r := ScanRow(t, y, 0, 0, sp, []);
      ScanRowShape(t, y, 0, 0, sp, []);
      ScanRowsShape(t, y + 1, r.spans, acc + [r.values]);
    }
  }

  /** The finished table has one row per declared row, none wider than the scan width. */
  lemma ScanShape(t: Grid)
    requires Aligned(t)
    ensures |Scan(t)| == |t.rows|
    ensures forall i :: 0 <= i < |Scan(t)| ==> |Scan(t)[i]| <= (if t.width > 0 then t.width else 0)
  {
    ScanRowsShape(t, 0, [], []);
  }

  /** Every cell of row `y` declares spans of at most 1. */
  predicate PlainRow(t: Grid, y: nat)
    requires Aligned(t) && y < |t.rows|
  {
    forall k :: 0 <= k < |t.rows[y]| ==> t.rSpans[y][k] <= 1 && t.cSpans[y][k] <= 1
  }

  /** Without spans, and with the width at least the row's length, the row comes back as declared. */
  lemma {:induction false} ScanPlainRow(t: Grid, y: nat, x: nat)
    requires Aligned(t) && y < |t.rows| && PlainRow(t, y)
    requires x <= |t.rows[y]| <= t.width
    ensures ScanRow(t, y, x, x, [], t.rows[y][..x]) == RowScan(t.rows[y], [], |t.rows[y]|)
    decreases t.width - x
  {
    var row := t.rows[y];
    if x < |row| {
      assert row[..x] + [row[x]] == row[..x + 1];
      ScanPlainRow(t, y, x + 1);
    } else {
      assert row[..x] == row;
    }
  }

  /** The row loop over rows without spans hands every row back unchanged. */
  lemma {:induction false} ScanPlainRows(t: Grid, y: nat)
    requires Aligned(t) && y <= |t.rows|
    requires forall i :: 0 <= i < |t.rows| ==> PlainRow(t, i) && |t.rows[i]| <= t.width
    ensures ScanRows(t, y, [], t.rows[..y]) == t.rows
    decreases |t.rows| - y
  {
    if y < |t.rows| {
      ScanPlainRow(t, y, 0);
      assert t.rows[y][..0] == [];
      assert t.rows[..y] + [t.rows[y]] == t.rows[..y + 1];
      ScanPlainRows(t, y + 1);
    } else {
      assert t.rows[..y] == t.rows;
    }
  }

  /** A table whose cells span one row and one column, scanned at least as wide as its widest row, is its declared rows. */
  lemma ScanPlainTable(t: Grid)
    requires Aligned(t)
    requires forall i :: 0 <= i < |t.rows| ==> PlainRow(t, i) && |t.rows[i]| <= t.width
    ensures Scan(t) == t.rows
  {
    ScanPlainRows(t, 0);
    assert t.rows[..0] == [];
  }

  /**
   * The scan width is the number of declared cells, not of columns: in a
   * two-column table whose first cell spans two columns, the first row's
   * second declared cell "B" is cut off.
   */
  lemma WideCellIsTruncated()
    ensures Scan(Grid([["A", "B"], ["C", "D"]], [[1, 1], [1, 1]], [[2, 1], [1, 1]], 2)) == [["A", "A"], ["C", "D"]]
  {
    var t := Grid([["A", "B"], ["C", "D"]], [[1, 1], [1, 1]], [[2, 1], [1, 1]], 2);
    var a := CellSpan(0, 2, 0, 1, "A");
    assert ScanRow(t, 0, 2, 1, [a], ["A", "A"]) == RowScan(["A", "A"], [a], 1);
    assert FirstMatch([a], 1, 0) == Some("A");
    assert ScanRow(t, 0, 1, 1, [a], ["A"]) == RowScan(["A", "A"], [a], 1);
    assert ScanRow(t, 0, 0, 0, [], []) == RowScan(["A", "A"], [a], 1);
    assert FirstMatch([a], 0, 1) == None && FirstMatch([a], 1, 1) == None;
    assert ScanRow(t, 1, 1, 1, [a], ["C"]) == RowScan(["C", "D"], [a], 2);
    assert ScanRow(t, 1, 0, 0, [a], []) == RowScan(["C", "D"], [a], 2);
  }
}

=== FILE: text.dfy ===
/**
 * The string primitives the extractor leans on, stated over `seq<char>`:
 * `strings.TrimSpace`, `strings.ToLower` (ASCII letters only) and `strconv.Atoi`.
 */
module GoText {
  import opened Wrappers

  /** Go's `unicode.IsSpace`: the Unicode White_Space characters. */
  predicate IsSpace(c: char) {
    c == '\t' || c == '\n' || c == '\U{0B}' || c == '\U{0C}' || c == '\r' || c == ' '
    || c == '\U{85}' || c == '\U{A0}' || c == '\U{1680}'
    || ('\U{2000}' <= c <= '\U{200A}')
    || c == '\U{2028}' || c == '\U{2029}' || c == '\U{202F}' || c == '\U{205F}' || c == '\U{3000}'
  }

  predicate AllSpace(s: string) {
    forall i :: 0 <= i < |s| ==> IsSpace(s[i])
  }

  /** Drops leading white space. */
  function TrimLeft(s: string): string {
    if s != [] && IsSpace(s[0]) then TrimLeft(s[1..]) else s
  }

  /** Drops trailing white space. */
  function TrimRight(s: string): string {
    if s != [] && IsSpace(s[|s| - 1]) then TrimRight(s[..|s| - 1]) else s
  }

  /** `strings.TrimSpace`: white space removed at both ends. */
  function TrimSpace(s: string): string {
    TrimRight(TrimLeft(s))
  }

  /** `TrimLeft(s)` is the suffix of `s` after its leading white space, and starts with a non-space character. */
  lemma {:induction false} TrimLeftShape(s: string)
    ensures |TrimLeft(s)| <= |s| && TrimLeft(s) == s[|s| - |TrimLeft(s)|..]
    ensures AllSpace(s[..|s| - |TrimLeft(s)|])
    ensures TrimLeft(s) != [] ==> !IsSpace(TrimLeft(s)[0])
  {
    if s != [] && IsSpace(s[0]) {
      var t := s[1..];
      TrimLeftShape(t);
      var k := |t| - |TrimLeft(t)|;
      assert s[..k + 1] == [s[0]] + t[..k];
      assert t[k..] == s[k + 1..];
    }
  }

  /** `TrimRight(s)` is the prefix of `s` before its trailing white space, and ends with a non-space character. */
  lemma {:induction false} TrimRightShape(s: string)
    ensures |TrimRight(s)| <= |s| && TrimRight(s) == s[..|TrimRight(s)|]
    ensures AllSpace(s[|TrimRight(s)|..])
    ensures TrimRight(s) != [] ==> !IsSpace(TrimRight(s)[|TrimRight(s)| - 1])
  {
    if s != [] && IsSpace(s[|s| - 1]) {
      var t := s[..|s| - 1];
      TrimRightShape(t);
      var k := |TrimRight(t)|;
      assert s[k..] == t[k..] + [s[|s| - 1]];
      assert t[..k] == s[..k];
    }
  }

  /** `TrimSpace(s)` is a slice of `s` with only white space around it, and starts and ends with a non-space character. */
  lemma TrimSpaceIsSlice(s: string) returns (i: nat)
    ensures i + |TrimSpace(s)| <= |s| && s[i..i + |TrimSpace(s)|] == TrimSpace(s)
    ensures AllSpace(s[..i]) && AllSpace(s[i + |TrimSpace(s)|..])
    ensures TrimSpace(s) != [] ==> !IsSpace(TrimSpace(s)[0]) && !IsSpace(TrimSpace(s)[|TrimSpace(s)| - 1])
  {
    var l := TrimLeft(s);
    var r := TrimRight(l);
    TrimLeftShape(s);
    TrimRightShape(l);
    i := |s| - |l|;
    assert s[i..i + |r|] == r;
    assert s[i + |r|..] == l[|r|..];
  }

  /** The ends of a trimmed string are not white space. */
  lemma TrimSpaceEnds(s: string)
    ensures TrimSpace(s) != [] ==> !IsSpace(TrimSpace(s)[0]) && !IsSpace(TrimSpace(s)[|TrimSpace(s)| - 1])
  {
    var i := TrimSpaceIsSlice(s);
  }

  lemma {:induction false} TrimLeftAt(s: string, i: nat)
    requires i <= |s| && AllSpace(s[..i])
    requires i < |s| ==> !IsSpace(s[i])
    ensures TrimLeft(s) == s[i..]
  {
    if i > 0 {
      assert IsSpace(s[..i][0]);
      assert s[1..][..i - 1] == s[1..i];
      TrimLeftAt(s[1..], i - 1);
      assert s[1..][i - 1..] == s[i..];
    }
  }

  lemma {:induction false} TrimRightAt(s: string, j: nat)
    requires j <= |s| && AllSpace(s[j..])
    requires j > 0 ==> !IsSpace(s[j - 1])
    ensures TrimRight(s) == s[..j]
  {
    if j < |s| {
      assert IsSpace(s[j..][|s| - 1 - j]);
      var t := s[..|s| - 1];
      assert t[j..] == s[j..|s| - 1];
      TrimRightAt(t, j);
      assert t[..j] == s[..j];
    }
  }

  /**
   * Conversely, that characterisation determines the trimmed string: any slice
   * `s[i..j]` with only white space outside it and non-space characters at
   * its ends is `TrimSpace(s)`.
   */
  lemma {:induction false} TrimSpaceUnique(s: string, i: nat, j: nat)
    requires i <= j <= |s|
    requires AllSpace(s[..i]) && AllSpace(s[j..])
    requires i < j ==> !IsSpace(s[i]) && !IsSpace(s[j - 1])
    ensures TrimSpace(s) == s[i..j]
  {
    if i == j {
      AllSpaceJoin(s, i);
      TrimSpaceOfBlank(s);
    } else {
      TrimSpaceOfSlice(s, i, j);
    }
  }

  lemma TrimSpaceOfBlank(s: string)
    requires AllSpace(s[..|s|])
    ensures TrimSpace(s) == []
  {
    TrimLeftAt(s, |s|);
    assert TrimLeft(s) == [];
  }

  lemma TrimSpaceOfSlice(s: string, i: nat, j: nat)
    requires i < j <= |s|
    requires AllSpace(s[..i]) && AllSpace(s[j..])
    requires !IsSpace(s[i]) && !IsSpace(s[j - 1])
    ensures TrimSpace(s) == s[i..j]
  {
    TrimLeftAt(s, i);
    TrimRightOfSuffix(s, i, j);
  }

  lemma TrimRightOfSuffix(s: string, i: nat, j: nat)
    requires i < j <= |s| && AllSpace(s[j..]) && !IsSpace(s[j - 1])
    ensures TrimRight(s[i..]) == s[i..j]
  {
    var l := s[i..];
    assert l[j - i..] == s[j..];
    TrimRightAt(l, j - i);
    assert l[..j - i] == s[i..j];
  }

  lemma AllSpaceJoin(s: string, i: nat)
    requires i <= |s| && AllSpace(s[..i]) && AllSpace(s[i..])
    ensures AllSpace(s[..|s|])
  {
    forall m | 0 <= m < |s| ensures IsSpace(s[m]) {
      if m < i { assert s[..i][m] == s[m]; } else { assert s[i..][m - i] == s[m]; }
    }
  }

  /** Trimming a trimmed string changes nothing. */
  lemma TrimSpaceIdempotent(s: string)
    ensures TrimSpace(TrimSpace(s)) == TrimSpace(s)
  {
    var r := TrimSpace(s);
    TrimSpaceEnds(s);
    TrimSpaceUnique(r, 0, |r|);
    assert r[0..|r|] == r;
  }

  /** One trailing blank after a trimmed, non-empty string is removed again by trimming. */
  lemma TrimSpaceDropsTrailingBlank(t: string)
    requires t != [] && !IsSpace(t[0]) && !IsSpace(t[|t| - 1])
    ensures TrimSpace(t + " ") == t
  {
    var s := t + " ";
    assert s[|t|..] == " ";
    assert s[..0] == [];
    TrimSpaceUnique(s, 0, |t|);
    assert s[0..|t|] == t;
  }

  /** ASCII lower-casing of one character. */
  function LowerChar(c: char): char {
    if 'A' <= c <= 'Z' then (c as int + 32) as char else c
  }

  /** `strings.ToLower`, restricted to ASCII letters. */
  function ToLower(s: string): (r: string)
    ensures |r| == |s|
    ensures forall i :: 0 <= i < |s| ==> r[i] == LowerChar(s[i])
  {
    if s == [] then [] else [LowerChar(s[0])] + ToLower(s[1..])
  }

  const MinInt64: int := -0x8000_0000_0000_0000
  const MaxInt64: int := 0x7FFF_FFFF_FFFF_FFFF

  predicate IsDigit(c: char) {
    '0' <= c <= '9'
  }

  predicate AllDigits(s: string) {
    forall i :: 0 <= i < |s| ==> IsDigit(s[i])
  }

  /** The value of a decimal numeral, most significant digit first. */
  function DigitsValue(ds: string): nat
    requires AllDigits(ds)
  {
    if ds == [] then 0 else DigitsValue(ds[..|ds| - 1]) * 10 + (ds[|ds| - 1] as int - '0' as int)
  }

  /**
   * `strconv.Atoi` on a 64-bit platform: an optional sign, then at least one
   * decimal digit and nothing else; the value must fit in an `int64`.
   * Any other input is an error, here `None`.
   */
  function Atoi(s: string): Option<int> {
    var signed := s != [] && (s[0] == '-' || s[0] == '+');
    var body := if signed then s[1..] else s;
    if body == [] || !AllDigits(body) then None
    else
      var v: int := if s[0] == '-' then -(DigitsValue(body) as int) else DigitsValue(body);
      if MinInt64 <= v <= MaxInt64 then Some(v) else None
  }

  /**
   * What `Atoi` accepts: an `int64`, written as a digit or sign followed by
   * digits only.
   */
  lemma AtoiAccepts(s: string)
    ensures Atoi(s).Some? ==> MinInt64 <= Atoi(s).value <= MaxInt64
    ensures Atoi(s).Some? ==> s != [] && (IsDigit(s[0]) || s[0] == '+' || s[0] == '-')
    ensures Atoi(s).Some? ==> AllDigits(s[1..])
  {
    if Atoi(s).Some? && !(s[0] == '-' || s[0] == '+') {
      assert forall i :: 1 <= i < |s| ==> s[1..][i - 1] == s[i];
    }
  }

  /** The decimal numeral of a natural number, without leading zeros. */
  function Decimal(n: nat): (r: string)
    ensures r != [] && AllDigits(r)
  {
    if n < 10 then [('0' as int + n) as char]
    else Decimal(n / 10) + [('0' as int + n % 10) as char]
  }

  lemma {:induction false} DecimalValue(n: nat)
    ensures DigitsValue(Decimal(n)) == n
  {
    if n >= 10 {
      DecimalValue(n / 10);
      var d := Decimal(n);
      assert d[..|d| - 1] == Decimal(n / 10);
    }
  }

  /**
   * `Atoi` reads back every `int64` written in decimal, with or without a
   * minus sign, `MinInt64` included; one past `MaxInt64` without a sign is
   * refused.
   */
  lemma AtoiDecimal(n: nat)
    requires n <= MaxInt64 + 1
    ensures n <= MaxInt64 ==> Atoi(Decimal(n)) == Some(n)
    ensures n > MaxInt64 ==> Atoi(Decimal(n)) == None
    ensures Atoi("-" + Decimal(n)) == Some(-(n as int))
  {
    DecimalValue(n);
    var d := Decimal(n);
    assert IsDigit(d[0]);
    assert ("-" + d)[1..] == d;
  }
}

=== FILE: widths.dfy ===
/** The width of a list of rows, as both parsers keep it in `maxCols`. */
module Widths {

  /** The number of cells in the longest row; 0 for no rows. */
  function MaxLen<T>(rows: seq<seq<T>>): nat {
    if rows == [] then 0
    else
      var m := MaxLen(rows[..|rows| - 1]);
      if |rows[|rows| - 1]| > m then |rows[|rows| - 1]| else m
  }

  /** `MaxLen` is the maximum: no row is longer, and some row is that long when there are rows. */
  lemma {:induction false} MaxLenIsMax<T>(rows: seq<seq<T>>)
    ensures forall i :: 0 <= i < |rows| ==> |rows[i]| <= MaxLen(rows)
    ensures rows != [] ==> exists i :: 0 <= i < |rows| && |rows[i]| == MaxLen(rows)
    ensures rows == [] ==> MaxLen(rows) == 0
  {
    if rows != [] {
      var init := rows[..|rows| - 1];
      MaxLenIsMax(init);
      assert forall i :: 0 <= i < |init| ==> init[i] == rows[i];
      if init != [] && MaxLen(rows) == MaxLen(init) {
        var i :| 0 <= i < |init| && |init[i]| == MaxLen(init);
        assert |rows[i]| == MaxLen(rows);
      }
    }
  }
}

=== FILE: wrappers.dfy ===
/** Optional values and results with an error, as Go's `(value, error)` pairs. */
module Wrappers {

  datatype Option<+T> = None | Some(value: T)

  datatype Result<+R, +E> = Success(value: R) | Failure(error: E)
}
